=== FILE: README.md ===
# Texture++ installer core in Dafny

The Texture++ installer lets a user pick a content tier ("variant") and a Mods
folder. It then:

- downloads the variant's folders from a content repository, one by one and in catalog order;
- deletes every `.png`/`.dds` texture that no `.ini` manifest under the install directory references;
- writes a diagnostic log and uploads it.

Before a sync starts, the window shows an estimate of the download time. The
estimate is computed from the measured connection speed.

This project models that core as pure functions over immutable data:

- **Catalog** (`catalog.dfy`): the variant catalog `VARIANT_MAP` and the radio buttons of the selection screen.
- **FileTree** (`filetree.dfy`): the install tree, as a map from component paths to files (their lines, whether the OS refuses to delete them, and whether it refuses to open them for reading) and directories. It also holds the name tests `Path.suffix` and `rglob('*.ini')` make.
- **Manifest** (`manifest.dfy`): the manifest line pattern `^filename\s*=\s*(.+)$`, which ignores case. It is written as a scanner and proved equal to a declarative statement of the regex match. This module also builds the reference set over a whole tree.
- **Sweep** (`sweep.dfy`): the clean-up pass, as a fold over the order in which `rglob('*')` yields entries.
- **Sync** (`sync.py`'s `sync_repo`, in `sync.dfy`), in this order: the mirror switch, the variant check, the install directory, the directory creation, the ordered fetch loop that stops at the first failure, the clean-up, the log name, the log write, and the upload.
- **Estimate** (`estimate.dfy`): the download-time estimate, `calculate_estimated_download_time`.
- **SpeedTest** (`speedtest.dfy`): the reachability probe, the mirror recommendation, the speed arithmetic and the Hugging Face environment set-up.
- **App** (`app.dfy`): the window's decisions:
  - the variant read back from the configuration file;
  - the guard before a sync;
  - how the worker's outcome reaches the user (success dialog, error dialog, or the "interrupted" status).

Everything outside the program is a parameter. This covers the content store
(`snapshot_download`), the directory walk order, the clocks, the geolocation
and hardware lookups, the log write, the upload, the HEAD requests and the
file-system existence probe. The `Sync.Services` record collects the ones the
sync uses.

Where the code behaves differently from what one might expect, the model follows the code:

- **Sweep errors:** a texture the OS refuses to delete, or a directory whose name ends in `.png`/`.dds`, makes `unlink` raise. The error leaves `sync_repo` (`Sync.SyncResult.Raised`); it is not tolerated per file. A directory named like a manifest, or a manifest the OS will not open for reading, makes `open` raise the same way.
- **Log write errors:** a failure to write the local log also leaves `sync_repo`. Only the upload and the removal of the local copy are best-effort.
- **Cancellation:** the stop flag is never read inside `sync_repo`. Cancellation only suppresses the dialogs after the sync has returned (`App.Route`), so all folders are fetched regardless.
- **Estimate order:** the estimate checks for an existing install and for the speed before it looks at the size.
- **Mini:** it keeps a non-empty `local_dir`. The sync installs it into the Mods folder itself because its name is special-cased. The estimate and the displayed path still use `Mods/Texture++ Mini`, so the estimate does not see a Mini install the sync made (`App.MiniEstimateMissesInstall`).

## Model

| member | source | states |
|---|---|---|
| Catalog.VariantMap | Installer/sync.py:10-16 | the five variants; every entry has a non-empty folder list, a non-empty local directory and a positive whole size in GB, and every entry except Mini fetches `Base_4X` first |
| Catalog.SelectionChoices | Installer/main.py:235-241 | the selection screen offers every catalog variant exactly once and nothing else, and each button's label gives the size the catalog records for its variant |
| Text.Strip | Installer/sync.py:129 | `str.strip()`: the result is the input with only whitespace removed at both ends (Python's `isspace` set); it is empty exactly when the input is all whitespace, and otherwise starts and ends with a non-space |
| Text.RemoveChar | Installer/sync.py:142 | `replace(':', '')`: no colon is left, every other character keeps its count, and a one-character text is kept or dropped |
| Text.RemoveCharConcat | Installer/sync.py:142 | removing distributes over concatenation, so the remaining characters keep their order |
| Text.RemoveCharAround | Installer/sync.py:142 | a colon between two colon-free texts is dropped and the two texts are kept in order |
| Text.BeforeFirst | Installer/sync.py:76 | `split('.')[0]`: a prefix of the input with no dot, and followed by a dot when it is shorter than the input |
| Text.BeforeFirstCut | Installer/sync.py:76 | a dot-free text is kept whole, and a dot-free head followed by a dot and anything is cut back to the head |
| Text.JoinSplit | Installer/sync.py:151 | `split('\n')` loses nothing: joining the parts with the separator gives back the text |
| Text.ParseNatToString | Installer/main.py:123-127 | the decimal rendering of a whole number reads back as that number |
| FileTree.LastIndexOf | Installer/sync.py:134 | `rfind`: the index of the last occurrence of the character, or -1 when there is none |
| FileTree.TextureByEnding | Installer/sync.py:134 | `suffix.lower() in ['.png', '.dds']` holds exactly for names longer than four characters that end in `.png` or `.dds` in any case, so a file named just `.png` is kept |
| Manifest.ValueStartMatches | Installer/sync.py:125-129 | on a stripped line, the scanner finds a value exactly when the regex matches, and the value it finds is the captured group |
| Manifest.ParseLine | Installer/sync.py:125-130 | a manifest line contributes exactly when the pattern matches the stripped line; the reference is the captured group, non-empty and without surrounding whitespace |
| Manifest.LinesRefs | Installer/sync.py:126-130 | a file's references are exactly the values its lines contribute |
| Manifest.References | Installer/sync.py:124-130 | the reference set is exactly the values contributed by lines of manifests (names ending in `.ini`, any case) under the install directory; reading fails exactly when such a name is a directory or a file the OS will not open for reading |
| Sweep.SweepListing | Installer/sync.py:132-137 | the walk finishes exactly when every stale entry it visits can be unlinked; it only removes visited stale entries (textures under the root whose bare name is unreferenced), leaves the rest unchanged, counts what it removed, and on failure names the undeletable stale entry |
| Sweep.SweptKeepsDirs | Installer/sync.py:132-137 | a finished sweep never removes a directory: an entry is a directory afterwards exactly when it was one before |
| Sweep.CompleteSweep | Installer/sync.py:132-137 | with a walk that covers the root, a finished sweep leaves exactly the tree minus the stale set and reports its size; it finishes exactly when every stale entry is deletable |
| Sync.InstallDir | Installer/sync.py:96-99 | the install directory is the Mods folder itself exactly for Mini, and `Mods/local_dir` for every other variant |
| Sync.MakeDirs | Installer/sync.py:101 | `mkdir(parents=True, exist_ok=True)` fails exactly when a prefix of the path is a file; otherwise the directory exists, nothing is lost or changed, and only its prefixes are added |
| Sync.FetchAll | Installer/sync.py:103-121 | one fetch per folder, in catalog order, each with pattern `folder/*` and each starting from the tree the previous one left; the loop ends without failure exactly when every folder was fetched, and otherwise stops at the first fetch that raised, whose error and tree it reports |
| Sync.UtcTimestamp | Installer/sync.py:71-79 | the time service's answer when there is one, otherwise the local clock: a dot-free prefix of it, which is the whole text unless a dot follows |
| Sync.TimestampCut | Installer/sync.py:71-79 | a time without a fraction is kept whole, and one with a fraction loses the dot and everything after it, from either source |
| Sync.LogFilename | Installer/sync.py:141-143 | the log name ends in `_<variant>.json`, and the part before is the timestamp with every colon removed and the other characters in order |
| Sync.LogFilenameKeepsOrder | Installer/sync.py:141-143 | a timestamp `a:b` with colon-free parts names the log `ab_<variant>.json` |
| Sync.Deliver | Installer/sync.py:157-170 | the local log is removed exactly when both the upload and the removal succeed; a failure of either only adds a status line, and no other entry changes |
| Sync.Report | Installer/sync.py:140-172 | the report raises exactly when the log cannot be written; otherwise it returns `(True, "All operations completed!")` and attempts the upload to `logs/<name>`; the record carries the variant and the measured speed |
| Sync.MirrorEnv | Installer/sync.py:87-88 | with the mirror chosen, `HF_ENDPOINT` names the mirror; without it the environment is untouched |
| Sync.CleanUp | Installer/sync.py:123-172 | after a complete download, the clean-up raises exactly when a manifest under the install directory cannot be opened, the walk visits a stale texture it cannot unlink, or the log cannot be written (an error, or a directory at the log path); otherwise it returns `(True, "All operations completed!")` with an upload attempt |
| Sync.AfterDownload | Installer/sync.py:116-121 | a failed download returns `(False, "An error occurred: <e>")` with its status line and no reading, sweeping, log or upload; success implies the download completed; after a complete download, success holds exactly when the clean-up cannot raise on the tree the downloads left |
| Sync.SyncKnown | Installer/sync.py:94-172 | for a known variant, calls follow the catalog's folders; a failure result names the failed fetch's error and keeps the tree it left, with no record or upload; success means every folder was fetched and the upload was attempted; a failed `mkdir` raises with nothing fetched; otherwise the calls are the chained `snapshot_download`s of the catalog folders into the install directory, running either to the end with every fetch successful or to the first failed one; a failed fetch returns `(False, "An error occurred: <e>")` and keeps the tree it left; once all succeeded the run succeeds exactly when the clean-up cannot raise |
| Sync.SyncRepo | Installer/sync.py:81-172 | the mirror switch happens first; an unknown variant returns `(False, "Error: Unknown variant '<v>'.")` with no directory created and nothing fetched; a known variant's outcome has the properties of SyncKnown for its `InstallDir` (the Mods folder itself for Mini, `Mods/<local_dir>` otherwise), so the folders are fetched in order up to the first failure, which returns `(False, "An error occurred: <e>")`, and all downloads succeeding gives `(True, "All operations completed!")` exactly when the clean-up cannot raise |
| Sync.SyncRemovesStale | Installer/sync.py:94-137 | with a walk that visits everything, a successful `sync_repo` of a catalog variant created the install directory, and apart from the log file its final tree is the downloaded tree minus exactly the stale textures under that directory |
| Sync.CleanUpRemovesStale | Installer/sync.py:123-172 | with a walk that covers the install directory, a successful clean-up has removed exactly the stale textures, and every other entry except the log file is unchanged |
| Sync.ResultIgnoresUpload | Installer/sync.py:157-172 | the result of `sync_repo` is the same whatever the log upload and the log removal do |
| Estimate.Overhead | Installer/main.py:119-120 | the extra seconds are a multiple of 30 between 0 and 210, and none for no folders |
| Estimate.OverheadAppend | Installer/main.py:120 | one more folder adds 30 for a first `Base_4X`, 60 for the first of `Core_2X` and `Core_4X`, 120 for a first `World_2X`, and nothing otherwise; with the empty case this fixes the overhead of every folder list |
| Estimate.CoreOverheadOnce | Installer/main.py:120 | once `Core_2X` or `Core_4X` is present, adding either again adds nothing: the two share one 60-second overhead |
| Estimate.OverheadByMembership | Installer/main.py:120 | the overhead depends only on which folders occur, not on their order or repetition |
| Estimate.CatalogOverheads | Installer/main.py:119-120 | the overheads of the catalog entries: Mini 0, Base 30, Core 90, Core 4K 90, Finale 210 |
| Estimate.TotalSeconds | Installer/main.py:118-121 | the total minus the overhead, times the speed, is the size in megabits (`size_gb * 8000`); it is never below the overhead |
| Estimate.FasterIsNotSlower | Installer/main.py:118-121 | a faster connection never gives a longer total |
| Estimate.RoundHalfEven | Installer/main.py:123-127 | `round`: within one half of the input, and even on a tie |
| Estimate.RoundHalfEvenUnique | Installer/main.py:123-127 | no other integer meets those two conditions |
| Estimate.EtaOf | Installer/main.py:122-127 | the unit is the one whose range (below 60 s, below 3600 s, from 3600 s) holds the total, and the amount is the total in that unit rounded to within a half |
| Estimate.EstimateFor | Installer/main.py:103-130 | the cases in priority order: nothing changes for an unknown variant or an empty Mods folder; an existing `Mods/local_dir` wins whatever the speed; then an unknown speed means "measuring"; then a non-positive speed means "cannot estimate"; then the time of the total |
| Estimate.KnownVariantGetsTime | Installer/main.py:117-130 | for every catalog variant, with no install and a positive speed, a time is shown, never the missing-size text |
| Estimate.CoreAtTenMbps | Installer/main.py:117-128 | Core at 10 Mbps with no install reads 3 hours |
| Estimate.EtaTextInjective | Installer/main.py:122-128 | two time texts are equal only for the same amount and unit |
| Estimate.TextDistinguishes | Installer/main.py:108-130 | every text the estimate writes identifies the estimate it came from |
| SpeedTest.DetermineMirrorSetting | Installer/speedtest.py:12-35 | the mirror is recommended exactly when the main site does not answer 200 and the mirror does; the main site is probed first, and the mirror only when the main site failed |
| SpeedTest.CalculateSpeedMbps | Installer/speedtest.py:56-64 | zero unless the duration and the byte count are both positive, and then positive; speed times duration times 10^6 gives the bits downloaded |
| SpeedTest.SpeedMonotone | Installer/speedtest.py:56-64 | over the same duration, more bytes never give a lower speed |
| SpeedTest.SetupHfEnvironment | Installer/speedtest.py:37-46 | `HF_HOME` is the cache directory and `HF_HUB_DISABLE_PROGRESS_BARS` is `"1"`; `HF_ENDPOINT` is present exactly with the mirror and then names it; no other variable changes |
| SpeedTest.SetupIdempotent | Installer/speedtest.py:37-46 | setting the environment up twice equals setting it up once |
| SpeedTest.EndpointAgreement | Installer/speedtest.py:42-46 | with the mirror, the speed test and the sync set the same endpoint; without it, an endpoint already set survives the sync's switch but not the speed test's set-up |
| App.LoadVariant | Installer/main.py:148-158 | the loaded variant is always a catalog key; it is the configured name when the catalog knows it, and `Core` otherwise, including after read or JSON errors; loading raises exactly for undecodable bytes, non-object JSON, a container under `variant`, or a `use_mirror` value the checkbox variable refuses (a float, `null`, a container, or a string Tcl does not read as a boolean) |
| App.LoadMirror | Installer/main.py:148-158 | the mirror checkbox after loading: absent exactly when loading raises; checked only when the object's `use_mirror` reads as true (a non-zero integer, `true`, or a string Tcl reads as true), and otherwise unchecked |
| App.SaveConfig | Installer/main.py:160-171 | the saved object holds exactly the Mods folder, the variant and the mirror flag, as a string, a string and the checkbox's boolean value |
| App.ConfigRoundTrip | Installer/main.py:148-171 | saving a catalog variant and a mirror choice and loading the file again gives back both and does not raise |
| App.StartProcess | Installer/main.py:183-195 | a sync starts exactly when both the variant and the Mods folder are non-empty, and then with exactly those values |
| App.Route | Installer/main.py:197-217 | the stop flag shows only "Process interrupted by user." and no dialog; otherwise the success dialog appears exactly for a `True` result; a failure shows its message; an exception shows "A critical error occurred: <e>" |
| App.Confirm | Installer/main.py:183-208 | nothing runs unless both inputs are set; otherwise the sync runs with the window's values and its result is routed |
| App.SuccessMeansInstalled | Installer/main.py:197-217 | a success dialog means a known variant whose folders were all fetched in catalog order, and an attempted log upload |
| App.UnknownVariantShowsError | Installer/main.py:197-217 | confirming an unknown variant shows the error naming it, with nothing fetched and the tree untouched |
| App.MiniEstimateMissesInstall | Installer/main.py:104-110 | for Mini, the sync installs into the Mods folder itself, but the estimate looks for `Mods/Texture++ Mini` and does not report that install as existing |

## Left out

- The tkinter/ttkbootstrap GUI (frames, window sizing, Tk variable traces, the display path) is presentation only. Only the decisions it makes are modelled.
- Threads and the multiprocessing speed probe (`measure_download_speed`, `download_target`, `cleanup_cache`, `_perform_and_store_speed_test`) concern concurrency, timeouts and a class the speed-test module does not define. The measured speed is an input.
- `snapshot_download`, `upload_file`, the HEAD requests, the time and geolocation services, and the WMI hardware snapshot are foreign calls. Their results are inputs.
- JSON serialization of the record and the configuration file, and the file write in `save_config`, are I/O plumbing. The record is kept as a value; writing it only creates the file.
- Sync.Report: does not model the contents of the written log file (always empty in the model), because serialization is out of scope.
- Python floats: the estimate and the speed use exact reals. Float rounding is not modelled, so a total that lands within rounding error of a unit boundary or a tie may differ from the program.
- Text decoding: `errors='ignore'` decoding and Python's universal newlines are not modelled. A file's text is given as the lines Python iterates.
- Case folding: the manifest line pattern folds ASCII case plus the two extra letters Python's IGNORECASE matches against `i`. FileTree.IsManifest folds ASCII case only: how the Windows glob treats `İ` and `ı` in `.ini` is not modelled. Other Unicode case pairs are not modelled.
- Non-Windows platforms: there, `rglob('*.ini')` is case-sensitive. The model follows Windows, the only platform the installer supports.
- Directories: `rglob` can yield a directory as well as files. Deleting a directory raises, which the model covers. Symlinks and permissions on directories are not modelled.
- App.LoadVariant: returns only the variant (the checkbox value is `App.LoadMirror`). The Mods folder text that `load_config` stores is not returned. Which strings Tcl reads as booleans, and as which value, is an input.
- Exception texts are free strings in the model. The exact wording of Python's messages is not reproduced.

=== FILE: app.dfy ===
/** The installer window's decisions around a sync: the variant read back
    from the configuration file, the guard before a sync starts, and how the
    worker's outcome reaches the user. */
module App {
  import opened Wrappers
  import opened Catalog
  import opened FileTree
  import Sync
  import Estimate

  /** A JSON value as far as `load_config` cares: strings, booleans
      (Python's `bool`, a kind of `int`), other integers, floats, `null`,
      and containers (lists and objects, which cannot be hashed). */
  datatype Json = JString(s: string) | JBool(b: bool) | JInt(n: int) | JFloat | JNull | JContainer

  /** The configuration file as `load_config` finds it. */
  datatype ConfigFile =
    | Missing                             // `CONFIG_FILE.exists()` is false
    | Unreadable                          // `open` or the read raises `IOError`
    | Undecodable                         // the bytes do not decode: `UnicodeDecodeError`, not caught
    | Malformed                           // `json.load` raises `JSONDecodeError`
    | NotObject                           // valid JSON that is not an object: `config.get` raises
    | Object(fields: map<string, Json>)

  const VariantKey := "variant"
  const MirrorKey := "use_mirror"
  const ModsKey := "mods_folder"

  /** What Tk's `getboolean` makes of `v`, or `None` when it raises: an
      integer is true when non-zero, a string goes to Tcl (`tclBoolean`
      gives the boolean Tcl reads it as, if any), and every other type is
      refused. */
  function BooleanOf(v: Json, tclBoolean: string -> Option<bool>): (r: Option<bool>)
    ensures v.JBool? ==> r == Some(v.b)
    ensures v.JInt? ==> r == Some(v.n != 0)
    ensures v.JString? ==> r == tclBoolean(v.s)
    ensures v.JFloat? || v.JNull? || v.JContainer? ==> r.None?
  {
    match v
    case JBool(b) => Some(b)
    case JInt(n) => Some(n != 0)
    case JString(s) => tclBoolean(s)
    case _ => None
  }

  /** Whether `BooleanVar.set(v)` raises. */
  predicate BooleanSetRaises(v: Json, tclBoolean: string -> Option<bool>) {
    BooleanOf(v, tclBoolean).None?
  }

  /** The variant the window starts with, or `None` when `load_config`
      raises out of the constructor: bytes that do not decode, JSON that is
      not an object, a container under `variant` (the membership test
      hashes it), or a `use_mirror` value the checkbox variable refuses.
      Otherwise the variant is the configured name when the catalog knows
      it and `Core` in every other case, the read and JSON errors included. */
  function LoadVariant(cfg: ConfigFile, tclBoolean: string -> Option<bool>): (r: Option<string>)
    ensures r.Some? ==> r.value in VariantMap()
    ensures r.None? <==>
      || cfg.Undecodable?
      || cfg.NotObject?
      || (cfg.Object? && VariantKey in cfg.fields && cfg.fields[VariantKey].JContainer?)
      || (cfg.Object? && MirrorKey in cfg.fields && BooleanSetRaises(cfg.fields[MirrorKey], tclBoolean))
    ensures r.Some? && r.value != DefaultName ==>
      cfg.Object? && VariantKey in cfg.fields && cfg.fields[VariantKey] == JString(r.value)
    ensures (r.Some? && cfg.Object? && VariantKey in cfg.fields && cfg.fields[VariantKey].JString?
             && cfg.fields[VariantKey].s in VariantMap()) ==> r == Some(cfg.fields[VariantKey].s)
  {
    match cfg
    case Missing => Some(DefaultName)
    case Unreadable => Some(DefaultName)
    case Undecodable => None
    case Malformed => Some(DefaultName)
    case NotObject => None
    case Object(fields) =>
      var value := if VariantKey in fields then fields[VariantKey] else JString(DefaultName);
      var mirror := if MirrorKey in fields then fields[MirrorKey] else JBool(false);
      if value.JContainer? || BooleanSetRaises(mirror, tclBoolean) then None
      else if value.JString? && value.s in VariantMap() then Some(value.s)
      else Some(DefaultName)
  }

  /** The mirror checkbox after `load_config`, or `None` when it raises. It
      starts unchecked and keeps that unless the object sets `use_mirror`,
      which then decides it. */
  function LoadMirror(cfg: ConfigFile, tclBoolean: string -> Option<bool>): (r: Option<bool>)
    ensures r.None? <==> LoadVariant(cfg, tclBoolean).None?
    ensures r == Some(true) ==>
      cfg.Object? && MirrorKey in cfg.fields && BooleanOf(cfg.fields[MirrorKey], tclBoolean) == Some(true)
    ensures r.Some? && cfg.Object? && MirrorKey in cfg.fields ==> r == BooleanOf(cfg.fields[MirrorKey], tclBoolean)
  {
    if LoadVariant(cfg, tclBoolean).None? then None
    else if cfg.Object? && MirrorKey in cfg.fields then BooleanOf(cfg.fields[MirrorKey], tclBoolean)
    else Some(false)
  }

  /** `save_config`: the object written back, the checkbox's value
      becoming a JSON boolean. */
  function SaveConfig(mods: string, variant: string, useMirror: bool): (c: map<string, Json>)
    ensures c.Keys == {ModsKey, VariantKey, MirrorKey}
    ensures c[ModsKey] == JString(mods) && c[VariantKey] == JString(variant) && c[MirrorKey] == JBool(useMirror)
  {
    map[ModsKey := JString(mods), VariantKey := JString(variant), MirrorKey := JBool(useMirror)]
  }

  /** Saving and loading again restores a catalog variant and the mirror
      choice, and never raises, whatever Tcl accepts as a boolean string. */
  lemma ConfigRoundTrip(mods: string, variant: string, useMirror: bool, tclBoolean: string -> Option<bool>)
    requires variant in VariantMap()
    ensures LoadVariant(Object(SaveConfig(mods, variant, useMirror)), tclBoolean) == Some(variant)
    ensures LoadMirror(Object(SaveConfig(mods, variant, useMirror)), tclBoolean) == Some(useMirror)
  {
  }

  /** What pressing Confirm does: warn, or start the worker with the
      current folder, variant and mirror choice. */
  datatype Start = Refused(title: string, text: string) | Launched(mods: string, variant: string, useMirror: bool)

  /** `start_process`: a sync starts exactly when both the variant and the
      Mods folder are non-empty, and with exactly those values. */
  function StartProcess(variant: string, mods: string, useMirror: bool): (s: Start)
    ensures s.Launched? <==> |variant| > 0 && |mods| > 0
    ensures s.Launched? ==> s == Launched(mods, variant, useMirror)
    ensures s.Refused? ==> s.text == "Please select a variant and a Mods folder."
  {
    if |variant| == 0 || |mods| == 0 then
      Refused("Incomplete", "Please select a variant and a Mods folder.")
    else
      Launched(mods, variant, useMirror)
  }

  /** What the user sees when the worker is done: a success dialog, an
      error dialog, or, when the window was closed meanwhile, only the
      interruption status. */
  datatype Shown = SuccessDialog(message: string) | ErrorDialog(message: string) | Interrupted(status: string)

  const InterruptedText := "Process interrupted by user."
  const CriticalPrefix := "A critical error occurred: "

  /** `run_sync_worker` and `on_sync_complete`: an exception from the sync
      becomes a failure with the critical-error message; the stop flag,
      read after the sync returns, suppresses every dialog. */
  function Route(r: Sync.SyncResult, stopped: bool): (u: Shown)
    ensures u.Interrupted? <==> stopped
    ensures stopped ==> u == Interrupted(InterruptedText)
    ensures u.SuccessDialog? <==> !stopped && r.Returned? && r.ok
    ensures !stopped && r.Returned? ==> u.message == r.message
    ensures !stopped && r.Raised? ==> u == ErrorDialog(CriticalPrefix + r.error)
  {
    var (ok, message) := match r
      case Returned(ok, m) => (ok, m)
      case Raised(e) => (false, CriticalPrefix + e);
    if stopped then Interrupted(InterruptedText)
    else if ok then SuccessDialog(message)
    else ErrorDialog(message)
  }

  /** Confirm pressed through to what the user sees: the guard, the sync on
      the worker thread, and the routing of its outcome. `None`: nothing
      started. */
  function Confirm(variant: string, mods: string, useMirror: bool, speed: Option<real>, env: Sync.Env,
                   tree: Tree, sv: Sync.Services, stopped: bool): (r: Option<(Sync.SyncOutcome, Shown)>)
    ensures r.None? <==> |variant| == 0 || |mods| == 0
    ensures r.Some? ==> r.value.1 == Route(r.value.0.result, stopped)
    ensures r.Some? ==> r.value.0 == Sync.SyncRepo(mods, variant, useMirror, speed, env, tree, sv)
  {
    match StartProcess(variant, mods, useMirror)
    case Refused(_, _) => None
    case Launched(m, v, mirror) =>
      var o := Sync.SyncRepo(m, v, mirror, speed, env, tree, sv);
      Some((o, Route(o.result, stopped)))
  }

  /** A success dialog means a known variant whose folders were all
      fetched, in catalog order, and a log upload was attempted. */
  lemma SuccessMeansInstalled(variant: string, mods: string, useMirror: bool, speed: Option<real>,
                              env: Sync.Env, tree: Tree, sv: Sync.Services)
    requires |variant| > 0 && |mods| > 0
    ensures var r := Confirm(variant, mods, useMirror, speed, env, tree, sv, false);
      r.Some? && r.value.1.SuccessDialog? ==>
        && variant in VariantMap()
        && r.value.1 == SuccessDialog(Sync.Completed)
        && |r.value.0.calls| == |VariantMap()[variant].folders|
        && (forall i :: 0 <= i < |r.value.0.calls| ==>
              r.value.0.calls[i].folder == VariantMap()[variant].folders[i] && r.value.0.calls[i].result.Fetched?)
        && r.value.0.upload.Some?
  {
    var r := Confirm(variant, mods, useMirror, speed, env, tree, sv, false);
    if r.Some? && r.value.1.SuccessDialog? {
      var o := r.value.0;
      assert o.result.Returned? && o.result.ok;
      assert variant in VariantMap();
      assert Sync.KnownRunFacts(o, VariantMap()[variant].folders);
      assert Sync.AllFetched(o.calls);
    }
  }

  /** Confirming an unknown variant ends in the error dialog naming it,
      with nothing fetched, unless the window was closed. */
  lemma UnknownVariantShowsError(variant: string, mods: string, useMirror: bool, speed: Option<real>,
                                 env: Sync.Env, tree: Tree, sv: Sync.Services)
    requires |variant| > 0 && |mods| > 0 && variant !in VariantMap()
    ensures var r := Confirm(variant, mods, useMirror, speed, env, tree, sv, false);
      && r.Some?
      && r.value.1 == ErrorDialog("Error: Unknown variant '" + variant + "'.")
      && r.value.0.calls == [] && r.value.0.tree == tree
  {
  }

  /** For Mini the estimate looks for `Mods/Texture++ Mini`, while the sync
      installs Mini into the Mods folder itself: an install sync made,
      with no such sub-directory, is not reported as existing. */
  lemma MiniEstimateMissesInstall(mods: string, speed: Option<real>)
    requires |mods| > 0
    ensures Sync.InstallDir(mods, MiniName) == [mods]
    ensures Estimate.EstimateFor(MiniName, mods, p => p == Sync.InstallDir(mods, MiniName), speed) != Estimate.ExistingInstall
  {
    assert VariantMap()[MiniName].localDir == "Texture++ Mini";
    assert [mods, "Texture++ Mini"] != [mods];
  }
}

=== FILE: catalog.dfy ===
/** The fixed variant catalog (`VARIANT_MAP`) and the list of variants the
    selection screen offers. */
module Catalog {
  import opened Wrappers
  import opened Text

  /** One install tier: the remote folders it targets, in fetch order, the
      sub-directory of the Mods folder it installs into, and its size. */
  datatype Variant = Variant(folders: seq<string>, localDir: string, sizeGb: Option<real>)

  /** The one variant that installs into the Mods folder itself. */
  const MiniName := "Mini"
  /** The name the configuration falls back to. */
  const DefaultName := "Core"
  /** The folder every tier above Mini starts from. */
  const BaseFolder := "Base_4X"

  /** Every entry has a non-empty folder list, a non-empty local directory
      and a positive whole number of gigabytes; every entry except Mini
      fetches `Base_4X` first. */
  ghost predicate WellFormed(m: map<string, Variant>) {
    forall name :: name in m ==>
      && |m[name].folders| > 0
      && |m[name].localDir| > 0
      && m[name].sizeGb.Some?
      && m[name].sizeGb.value > 0.0
      && m[name].sizeGb.value.Floor as real == m[name].sizeGb.value
      && (name != MiniName ==> m[name].folders[0] == BaseFolder)
  }

  /** `VARIANT_MAP`. */
  function VariantMap(): (m: map<string, Variant>)
    ensures m.Keys == {"Mini", "Base", "Core", "Core 4K", "Finale"}
    ensures WellFormed(m)
    ensures DefaultName in m && MiniName in m
  {
    map[
      "Mini" := Variant(["Texture++ Mini"], "Texture++ Mini", Some(1.0)),
      "Base" := Variant(["Base_4X"], "Texture++ Base", Some(12.0)),
      "Core" := Variant(["Base_4X", "Core_2X"], "Texture++ Core", Some(15.0)),
      "Core 4K" := Variant(["Base_4X", "Core_4X"], "Texture++ Core 4K", Some(26.0)),
      "Finale" := Variant(["Base_4X", "Core_4X", "World_2X"], "Texture++ Finale", Some(55.0))
    ]
  }

  /** A radio button of the selection screen: the variant it selects and its label. */
  datatype Choice = Choice(value: string, text: string)

  /** The label a variant's radio button should carry: its name and its size. */
  function Label(name: string, v: Variant): string
    requires v.sizeGb.Some? && v.sizeGb.value >= 0.0
  {
    name + " (~" + NatToString(v.sizeGb.value.Floor) + "GB)"
  }

  /** The button selects a catalog variant and its label states that variant's size. */
  predicate LabelledBySize(c: Choice) {
    var m := VariantMap();
    c.value in m && m[c.value].sizeGb.Some? && m[c.value].sizeGb.value >= 0.0
    && c.text == Label(c.value, m[c.value])
  }

  lemma MiniLabelled()
    ensures LabelledBySize(Choice("Mini", "Mini (~1GB)"))
  {
    assert VariantMap()["Mini"].sizeGb.value.Floor == 1;
    assert NatToString(1) == "1";
  }

  lemma BaseLabelled()
    ensures LabelledBySize(Choice("Base", "Base (~12GB)"))
  {
    assert VariantMap()["Base"].sizeGb.value.Floor == 12;
    assert NatToString(12) == "12";
  }

  lemma CoreLabelled()
    ensures LabelledBySize(Choice("Core", "Core (~15GB)"))
  {
    assert VariantMap()["Core"].sizeGb.value.Floor == 15;
    assert NatToString(15) == "15";
  }

  lemma Core4KLabelled()
    ensures LabelledBySize(Choice("Core 4K", "Core 4K (~26GB)"))
  {
    assert VariantMap()["Core 4K"].sizeGb.value.Floor == 26;
    assert NatToString(26) == "26";
  }

  lemma FinaleLabelled()
    ensures LabelledBySize(Choice("Finale", "Finale (~55GB)"))
  {
    assert VariantMap()["Finale"].sizeGb.value.Floor == 55;
    assert NatToString(55) == "55";
  }

  /** The radio buttons of the selection screen, in display order. */
  const Choices: seq<Choice> := [
    Choice("Mini", "Mini (~1GB)"),
    Choice("Base", "Base (~12GB)"),
    Choice("Core", "Core (~15GB)"),
    Choice("Core 4K", "Core 4K (~26GB)"),
    Choice("Finale", "Finale (~55GB)")
  ]

  /** Each choice of the selection list carries its size label. */
  lemma ChoicesLabelled()
    ensures forall i :: 0 <= i < |Choices| ==> LabelledBySize(Choices[i])
  {
    MiniLabelled();
    BaseLabelled();
    CoreLabelled();
    Core4KLabelled();
    FinaleLabelled();
  }

  /** The selection list offers every catalog entry and nothing else. */
  lemma ChoicesCoverCatalog()
    ensures (set i | 0 <= i < |Choices| :: Choices[i].value) == VariantMap().Keys
  {
    var cs := Choices;
    var values := set i | 0 <= i < |cs| :: cs[i].value;
    assert cs[0].value in values && cs[1].value in values && cs[2].value in values;
    assert cs[3].value in values && cs[4].value in values;
  }

  /** No variant is offered twice. */
  lemma ChoicesDistinct()
    ensures forall i, j :: 0 <= i < j < |Choices| ==> Choices[i].value != Choices[j].value
  {
    var cs := Choices;
    assert cs[0].value[1] != cs[1].value[1] && cs[2].value[0] != cs[4].value[0];
    assert |cs[2].value| != |cs[3].value|;
  }

  /** The selection screen's list: each catalog variant is offered exactly
      once, nothing else is offered, and each label names the size the
      catalog records. */
  function SelectionChoices(): (cs: seq<Choice>)
    ensures (set i | 0 <= i < |cs| :: cs[i].value) == VariantMap().Keys
    ensures forall i, j :: 0 <= i < j < |cs| ==> cs[i].value != cs[j].value
    ensures forall i :: 0 <= i < |cs| ==> LabelledBySize(cs[i])
  {
    ChoicesLabelled();
    ChoicesCoverCatalog();
    ChoicesDistinct();
    Choices
  }
}

=== FILE: estimate.dfy ===
/** The download-time estimate of the selection screen
    (`calculate_estimated_download_time`): a priority-ordered choice between
    an existing install, an unknown or unusable speed, and a time computed
    from the variant's size, the measured speed and a fixed per-folder
    overhead, shown in seconds, minutes or hours. */
module Estimate {
  import opened Wrappers
  import opened Text
  import opened Catalog
  import opened FileTree

  datatype TimeUnit = Seconds | Minutes | Hours

  /** What one evaluation does to the estimate line. `Unchanged`: the
      method returns without touching it. */
  datatype Estimate =
    | Unchanged
    | ExistingInstall
    | Measuring
    | CannotEstimate
    | NoSize
    | Eta(amount: nat, unit: TimeUnit)

  /** Python's `int(flag)` for a boolean. */
  function Flag(b: bool): int {
    if b then 1 else 0
  }

  /** The fixed extra seconds for a folder list: 30 when `Base_4X` is
      fetched, 60 once when either `Core_2X` or `Core_4X` is, 120 when
      `World_2X` is. */
  function Overhead(folders: seq<string>): (r: int)
    ensures 0 <= r <= 210
    ensures r % 30 == 0
    ensures folders == [] ==> r == 0
  {
    30 * Flag(BaseFolder in folders)
    + 60 * Flag("Core_2X" in folders || "Core_4X" in folders)
    + 120 * Flag("World_2X" in folders)
  }

  /** What one more folder adds to the overhead: 30 for a first `Base_4X`,
      60 for the first of `Core_2X` and `Core_4X`, 120 for a first
      `World_2X`, nothing otherwise. With `Overhead([]) == 0` this fixes the
      overhead of every list, folder by folder. */
  lemma OverheadAppend(f: seq<string>, x: string)
    ensures Overhead(f + [x]) == Overhead(f) +
      (if x == BaseFolder && x !in f then 30
       else if (x == "Core_2X" || x == "Core_4X") && "Core_2X" !in f && "Core_4X" !in f then 60
       else if x == "World_2X" && x !in f then 120
       else 0)
  {
    assert forall y :: y in f + [x] <==> y in f || y == x;
  }

  /** `Core_2X` and `Core_4X` share one overhead: once either is in the
      list, adding the other (or either again) adds nothing. */
  lemma CoreOverheadOnce(f: seq<string>, x: string)
    requires x == "Core_2X" || x == "Core_4X"
    requires "Core_2X" in f || "Core_4X" in f
    ensures Overhead(f + [x]) == Overhead(f)
  {
    OverheadAppend(f, x);
  }

  /** The overhead depends only on which folders occur, not on their order
      or repetition. */
  lemma OverheadByMembership(f1: seq<string>, f2: seq<string>)
    requires forall x :: x in f1 <==> x in f2
    ensures Overhead(f1) == Overhead(f2)
  {
    assert (BaseFolder in f1) == (BaseFolder in f2);
    assert ("Core_2X" in f1) == ("Core_2X" in f2);
    assert ("Core_4X" in f1) == ("Core_4X" in f2);
    assert ("World_2X" in f1) == ("World_2X" in f2);
  }

  /** The overhead of each catalog entry. */
  lemma CatalogOverheads()
    ensures Overhead(VariantMap()["Mini"].folders) == 0
    ensures Overhead(VariantMap()["Base"].folders) == 30
    ensures Overhead(VariantMap()["Core"].folders) == 90
    ensures Overhead(VariantMap()["Core 4K"].folders) == 90
    ensures Overhead(VariantMap()["Finale"].folders) == 210
  {
    var mini := VariantMap()["Mini"].folders;
    assert mini == ["Texture++ Mini"];
    assert mini[0] != BaseFolder && mini[0] != "Core_2X" && mini[0] != "Core_4X" && mini[0] != "World_2X";
    var base := VariantMap()["Base"].folders;
    assert base[0] == BaseFolder && base[0] != "Core_2X" && base[0] != "Core_4X" && base[0] != "World_2X";
    var core := VariantMap()["Core"].folders;
    assert core[1] == "Core_2X" && core[0] != "World_2X" && core[1] != "World_2X";
    var core4 := VariantMap()["Core 4K"].folders;
    assert core4[1] == "Core_4X" && core4[0] != "World_2X" && core4[1] != "World_2X";
    var finale := VariantMap()["Finale"].folders;
    assert finale[0] == BaseFolder && finale[1] == "Core_4X" && finale[2] == "World_2X";
  }

  /** `size_gb * 8 * 1000 / speed + extra_seconds`. Taking the overhead
      away and multiplying by the speed gives back the size in megabits. */
  function TotalSeconds(sizeGb: real, speed: real, folders: seq<string>): (t: real)
    requires speed > 0.0
    ensures (t - Overhead(folders) as real) * speed == sizeGb * 8000.0
    ensures sizeGb >= 0.0 ==> t >= Overhead(folders) as real
  {
    var base := sizeGb * 8.0 * 1000.0 / speed;
    assert base * speed == sizeGb * 8000.0;
    base + Overhead(folders) as real
  }

  /** A faster connection never lengthens the estimate. */
  lemma FasterIsNotSlower(sizeGb: real, slow: real, fast: real, folders: seq<string>)
    requires sizeGb >= 0.0 && 0.0 < slow <= fast
    ensures TotalSeconds(sizeGb, fast, folders) <= TotalSeconds(sizeGb, slow, folders)
  {
    var o := Overhead(folders) as real;
    var a := TotalSeconds(sizeGb, slow, folders) - o;
    var b := TotalSeconds(sizeGb, fast, folders) - o;
    ScaleMonotone(b, slow, fast);
    calc {
      b * slow;
    <=
      b * fast;
    ==  // both are the size in megabits
      a * slow;
    }
    CancelPositive(a, b, slow);
  }

  /** Multiplying by a non-negative number keeps an ordering. */
  lemma ScaleMonotone(b: real, x: real, y: real)
    requires b >= 0.0 && x <= y
    ensures b * x <= b * y
  {
    assert b * y - b * x == b * (y - x);
  }

  /** A positive common factor can be cancelled from an ordering. */
  lemma CancelPositive(a: real, b: real, s: real)
    requires s > 0.0 && b * s <= a * s
    ensures b <= a
  {
    assert (a - b) * s == a * s - b * s;
  }

  /** Python's `round` of a number: the nearest integer, ties going to the
      even one. */
  function RoundHalfEven(x: real): (n: int)
    ensures n as real - 0.5 <= x <= n as real + 0.5
    ensures x - n as real == 0.5 || n as real - x == 0.5 ==> n % 2 == 0
  {
    var f := x.Floor;
    var d := x - f as real;
    if d < 0.5 then f
    else if d > 0.5 then f + 1
    else if f % 2 == 0 then f
    else f + 1
  }

  /** The rounding is the only integer with those two properties. */
  lemma RoundHalfEvenUnique(x: real, m: int)
    requires m as real - 0.5 <= x <= m as real + 0.5
    requires x - m as real == 0.5 || m as real - x == 0.5 ==> m % 2 == 0
    ensures m == RoundHalfEven(x)
  {
    var n := RoundHalfEven(x);
    assert -1 <= m - n <= 1;
    assert m % 2 == 0 || (x - m as real != 0.5 && m as real - x != 0.5);
    assert n % 2 == 0 || (x - n as real != 0.5 && n as real - x != 0.5);
  }

  /** The unit the estimate is shown in: seconds below a minute, minutes
      below an hour, hours from then on. */
  function UnitFor(total: real): TimeUnit {
    if total < 60.0 then Seconds
    else if total < 3600.0 then Minutes
    else Hours
  }

  /** Seconds per unit. */
  function Scale(u: TimeUnit): real {
    match u
    case Seconds => 1.0
    case Minutes => 60.0
    case Hours => 3600.0
  }

  /** The range of totals shown in each unit. */
  predicate InRange(total: real, u: TimeUnit) {
    match u
    case Seconds => total < 60.0
    case Minutes => 60.0 <= total < 3600.0
    case Hours => 3600.0 <= total
  }

  /** The estimate of a known total: the unit whose range holds it, and the
      total in that unit rounded to a whole number. */
  function EtaOf(total: real): (e: Estimate)
    requires total >= 0.0
    ensures e.Eta? && InRange(total, e.unit)
    ensures e.amount as real - 0.5 <= total / Scale(e.unit) <= e.amount as real + 0.5
  {
    var u := UnitFor(total);
    var n := RoundHalfEven(total / Scale(u));
    Eta(n, u)
  }

  /** `calculate_estimated_download_time` with `present` the file-system
      probe and `speed` the measured speed in Mbps (`None` while the probe
      runs). The install path it probes is `Mods/local_dir` for every
      variant. The checks run in this order: unknown variant or empty Mods
      folder, existing install, unknown speed, non-positive speed, missing
      size; only then is a time computed. */
  function EstimateFor(variant: string, mods: string, present: Path -> bool, speed: Option<real>): (e: Estimate)
    ensures e.Unchanged? <==> variant !in VariantMap() || |mods| == 0
    ensures e.ExistingInstall? <==>
      variant in VariantMap() && |mods| > 0 && present([mods, VariantMap()[variant].localDir])
    ensures e.Measuring? <==>
      variant in VariantMap() && |mods| > 0 && !present([mods, VariantMap()[variant].localDir]) && speed.None?
    ensures e.CannotEstimate? <==>
      variant in VariantMap() && |mods| > 0 && !present([mods, VariantMap()[variant].localDir])
      && speed.Some? && speed.value <= 0.0
    ensures e.NoSize? ==> variant in VariantMap() && VariantMap()[variant].sizeGb.None?
    ensures e.Eta? ==>
      && variant in VariantMap() && speed.Some? && speed.value > 0.0
      && VariantMap()[variant].sizeGb.Some?
      && e == EtaOf(TotalSeconds(VariantMap()[variant].sizeGb.value, speed.value, VariantMap()[variant].folders))
  {
    if variant !in VariantMap() || |mods| == 0 then Unchanged
    else
      var v := VariantMap()[variant];
      if present([mods, v.localDir]) then ExistingInstall
      else match speed
        case None => Measuring
        case Some(s) =>
          if s <= 0.0 then CannotEstimate
          else match v.sizeGb
            case None => NoSize
            case Some(size) =>
              assert size > 0.0;
              EtaOf(TotalSeconds(size, s, v.folders))
  }

  /** Every catalog entry has a size, so once the speed is positive and no
      install exists a time is always shown. */
  lemma KnownVariantGetsTime(variant: string, mods: string, present: Path -> bool, speed: real)
    requires variant in VariantMap() && |mods| > 0 && speed > 0.0
    requires !present([mods, VariantMap()[variant].localDir])
    ensures EstimateFor(variant, mods, present, Some(speed)).Eta?
  {
    assert WellFormed(VariantMap());
    assert VariantMap()[variant].sizeGb.Some?;
  }

  /** A worked case: Core (15 GB, folders `Base_4X` and `Core_2X`) at
      10 Mbps is 12000 + 90 seconds, shown as 3 hours. */
  lemma CoreAtTenMbps(mods: string, present: Path -> bool)
    requires |mods| > 0 && !present([mods, "Texture++ Core"])
    ensures EstimateFor("Core", mods, present, Some(10.0)) == Eta(3, Hours)
  {
    CatalogOverheads();
    var t := TotalSeconds(15.0, 10.0, VariantMap()["Core"].folders);
    assert t == 12090.0;
    assert UnitFor(t) == Hours;
    var x := t / 3600.0;
    assert 2.5 < x < 3.5;
    RoundHalfEvenUnique(x, 3);
  }

  const ExistingText := "Existing installation found." + " It will be updated and repaired."
  const MeasuringText := "Measuring internet speed..."
  const CannotText := "Cannot estimate internet speed."
  const NoSizeText := "No variant selected" + " or size not available."
  const EtaPrefix := "Estimated download time: "

  function UnitWord(u: TimeUnit): string {
    match u
    case Seconds => "seconds"
    case Minutes => "minutes"
    case Hours => "hours"
  }

  /** The text of the estimate line after an evaluation, given the text it
      had before. */
  function EstimateText(previous: string, e: Estimate): string {
    match e
    case Unchanged => previous
    case ExistingInstall => ExistingText
    case Measuring => MeasuringText
    case CannotEstimate => CannotText
    case NoSize => NoSizeText
    case Eta(n, u) => EtaText(n, u)
  }

  /** `f"Estimated download time: {n} {unit}"`. */
  function EtaText(n: nat, u: TimeUnit): string {
    EtaPrefix + (NatToString(n) + (" " + UnitWord(u)))
  }

  /** Equal texts after a common prefix are equal. */
  lemma CancelPrefix(p: string, a: string, b: string)
    requires p + a == p + b
    ensures a == b
  {
    assert a == (p + a)[|p|..];
    assert b == (p + b)[|p|..];
  }

  /** Two digit strings each followed by a text starting with a space are
      equal when the concatenations are. */
  lemma {:induction false} DigitsPrefix(d1: string, s1: string, d2: string, s2: string)
    requires forall i :: 0 <= i < |d1| ==> '0' <= d1[i] <= '9'
    requires forall i :: 0 <= i < |d2| ==> '0' <= d2[i] <= '9'
    requires |s1| > 0 && s1[0] == ' ' && |s2| > 0 && s2[0] == ' '
    requires d1 + s1 == d2 + s2
    ensures d1 == d2 && s1 == s2
  {
    var t := d1 + s1;
    assert forall k :: 0 <= k < |d1| ==> '0' <= t[k] <= '9';
    assert t[|d1|] == ' ';
    assert forall k :: 0 <= k < |d2| ==> '0' <= t[k] <= '9';
    assert t[|d2|] == ' ';
    assert |d1| == |d2|;
    assert d1 == t[..|d1|] && d2 == t[..|d2|];
  }

  /** Two times read the same only when they are the same time. */
  lemma EtaTextInjective(n1: nat, u1: TimeUnit, n2: nat, u2: TimeUnit)
    requires EtaText(n1, u1) == EtaText(n2, u2)
    ensures n1 == n2 && u1 == u2
  {
    var d1, d2 := NatToString(n1), NatToString(n2);
    var w1, w2 := " " + UnitWord(u1), " " + UnitWord(u2);
    CancelPrefix(EtaPrefix, d1 + w1, d2 + w2);
    DigitsPrefix(d1, w1, d2, w2);
    ParseNatToString(n1);
    ParseNatToString(n2);
    CancelPrefix(" ", UnitWord(u1), UnitWord(u2));
  }

  /** A time never reads like one of the fixed messages. */
  lemma EtaTextNotFixed(previous: string, e: Estimate, other: Estimate)
    requires e.Eta? && !other.Unchanged? && !other.Eta?
    ensures EstimateText(previous, e) != EstimateText(previous, other)
  {
    var t := EstimateText(previous, e);
    assert t == EtaPrefix + (NatToString(e.amount) + (" " + UnitWord(e.unit)));
    assert t[1] == 's';
    match other
    case ExistingInstall => assert ExistingText[1] == 'x';
    case Measuring => assert MeasuringText[1] == 'e';
    case CannotEstimate => assert CannotText[1] == 'a';
    case NoSize => assert NoSizeText[1] == 'o';
  }

  /** The text of an estimate that changes the line tells the estimate
      apart from every other one: the line is never ambiguous. */
  lemma TextDistinguishes(previous: string, e1: Estimate, e2: Estimate)
    requires !e1.Unchanged? && !e2.Unchanged?
    requires EstimateText(previous, e1) == EstimateText(previous, e2)
    ensures e1 == e2
  {
    if e1.Eta? && e2.Eta? {
      EtaTextInjective(e1.amount, e1.unit, e2.amount, e2.unit);
    } else if e1.Eta? {
      EtaTextNotFixed(previous, e1, e2);
    } else if e2.Eta? {
      EtaTextNotFixed(previous, e2, e1);
    } else {
      assert |ExistingText| != |MeasuringText| && |ExistingText| != |CannotText| && |ExistingText| != |NoSizeText|;
      assert |MeasuringText| != |CannotText| && |MeasuringText| != |NoSizeText| && |CannotText| != |NoSizeText|;
    }
  }
}

=== FILE: filetree.dfy ===
/** The on-disk install tree as the installer sees it through `pathlib`:
    paths as component sequences, files and directories as map entries,
    and the name tests `rglob` and `Path.suffix` perform. */
module FileTree {
  import opened Text

  /** A path as its components. The Mods folder the user picked is one
      opaque first component, so `Path(mods) / local_dir` is `[mods, localDir]`. */
  type Path = seq<string>

  /** A directory entry. `locked` stands for a file the operating system
      refuses to delete (in use, read-only, no permission); a file that is
      not `readable` is one that `open` refuses to read (no read permission,
      held open without sharing by another program); decoding cannot fail,
      since manifests are read with `errors='ignore'`. The text
      of a file is kept as the lines Python's text-mode iteration yields. */
  datatype Node = File(lines: seq<string>, locked: bool, readable: bool) | Dir

  type Tree = map<Path, Node>

  /** `p` lies strictly inside the directory `root` — what `root.rglob(...)` can yield. */
  predicate Below(p: Path, root: Path) {
    |root| < |p| && p[..|root|] == root
  }

  /** The last component, `Path.name`. */
  function Name(p: Path): string
    requires |p| > 0
  {
    p[|p| - 1]
  }

  /** The index of the last `c` in `s`, or -1 (Python's `str.rfind`). */
  function LastIndexOf(s: string, c: char): (i: int)
    ensures -1 <= i < |s|
    ensures i >= 0 ==> s[i] == c
    ensures forall k :: i < k < |s| ==> s[k] != c
  {
    if |s| == 0 then -1
    else if s[|s| - 1] == c then |s| - 1
    else LastIndexOf(s[..|s| - 1], c)
  }

  /** `PurePath.suffix`: from the last dot on, unless that dot starts the
      name or ends it. */
  function Suffix(name: string): string {
    var i := LastIndexOf(name, '.');
    if 0 < i < |name| - 1 then name[i..] else ""
  }

  /** The sweep's test `file_path.suffix.lower() in ['.png', '.dds']`. */
  predicate IsTexture(name: string) {
    Lower(Suffix(name)) == ".png" || Lower(Suffix(name)) == ".dds"
  }

  /** The last four characters of a name, in lower case. */
  function Ending(name: string): string
    requires |name| >= 4
  {
    Lower(name[|name| - 4..])
  }

  /** What `rglob('*.ini')` matches on Windows, where glob matching ignores
      case: any name ending in `.ini`, including `.ini` itself. */
  predicate IsManifest(name: string) {
    |name| >= 4 && Ending(name) == ".ini"
  }

  /** The texture test read off the end of the name alone: a texture is a
      name longer than four characters ending in `.png` or `.dds` in any
      case. So a file called just `.png` is not a texture, unlike `.ini`,
      which the manifest glob does match. */
  lemma {:induction false} TextureByEnding(name: string)
    ensures IsTexture(name) <==> |name| > 4 && (Ending(name) == ".png" || Ending(name) == ".dds")
  {
    var i := LastIndexOf(name, '.');
    if IsTexture(name) {
      var sfx := Suffix(name);
      assert 0 < i < |name| - 1 && sfx == name[i..];
      assert |sfx| == 4 by { assert |Lower(sfx)| == |sfx|; }
      assert name[|name| - 4..] == sfx;
    }
    if |name| > 4 && (Ending(name) == ".png" || Ending(name) == ".dds") {
      var e := name[|name| - 4..];
      assert e[0] == '.' by { assert LowerChar(e[0]) == '.'; }
      assert name[|name| - 4] == '.';
      forall k | |name| - 4 < k < |name| ensures name[k] != '.' {
        assert e[k - (|name| - 4)] == name[k];
        assert LowerChar(e[k - (|name| - 4)]) != '.';
      }
      assert i == |name| - 4;
    }
  }
}

=== FILE: manifest.dfy ===
/** Reading texture references out of the `.ini` manifests of an install:
    the line pattern `^filename\s*=\s*(.+)$` (ignoring case), applied to
    each stripped line, and the set of captured names over a whole tree. */
module Manifest {
  import opened Wrappers
  import opened Text
  import opened FileTree

  /** The key the pattern looks for. */
  const Key := "filename"

  /** One letter of the key under Python's IGNORECASE: ASCII case is
      ignored, and `i` also matches the dotted capital `İ` and dotless `ı`. */
  predicate KeyCharMatches(c: char, k: char) {
    LowerChar(c) == k || (k == 'i' && (c == '\U{130}' || c == '\U{131}'))
  }

  /** `s` starts with the key, in any case. */
  predicate KeyMatches(s: string) {
    |s| >= |Key| && forall i :: 0 <= i < |Key| ==> KeyCharMatches(s[i], Key[i])
  }

  /** The pattern matches the whole of `s` with the `=` at index `e` and
      the `(.+)` group running from index `j` to the end: key, spaces, `=`,
      spaces, then at least one character, none of them a line break. */
  ghost predicate Assignment(s: string, e: nat, j: nat) {
    && KeyMatches(s)
    && |Key| <= e < j < |s|
    && AllSpace(s[|Key|..e])
    && s[e] == '='
    && AllSpace(s[e + 1..j])
    && '\n' !in s[j..]
  }

  /** The pattern matches `s` in some way. */
  ghost predicate Matches(s: string) {
    exists e, j :: Assignment(s, e, j)
  }

  /** `v` is what the group captures when the pattern matches `s`: the
      regex engine takes as many spaces as it can after the `=`, so the
      group starts at a non-space. */
  ghost predicate Captures(s: string, v: string) {
    && 0 < |v| <= |s|
    && v == s[|s| - |v|..]
    && !IsSpace(v[0])
    && exists e, j :: j == |s| - |v| && Assignment(s, e, j)
  }

  /** Where the captured value starts in `s`, when the pattern matches. */
  function ValueStart(s: string): Option<nat>
  {
    if !KeyMatches(s) then None
    else
      var e := SkipSpaces(s, |Key|);
      if e == |s| || s[e] != '=' then None
      else
        var j := SkipSpaces(s, e + 1);
        if j == |s| || '\n' in s[j..] then None else Some(j)
  }

  /** A text with no space at either end is its own strip. */
  lemma StripUnpadded(t: string)
    requires |t| > 0 && !IsSpace(t[0]) && !IsSpace(t[|t| - 1])
    ensures Strip(t) == t
  {
    var r := Strip(t);
    assert SkipSpaces(t, 0) == 0;
    assert t[..|r|] == r;
  }

  /** When the scanner finds a value, the pattern matches and the value is
      the captured group. */
  lemma ValueStartSound(s: string)
    requires ValueStart(s).Some?
    ensures Matches(s) && Captures(s, s[ValueStart(s).value..])
  {
    var e := SkipSpaces(s, |Key|);
    var j := ValueStart(s).value;
    AllSpaceSlice(s, |Key|, e);
    AllSpaceSlice(s, e + 1, j);
    assert Assignment(s, e, j);
    assert |s| - |s[j..]| == j;
  }

  /** On a line ending in a non-space, whenever the pattern matches, the
      scanner finds the value. */
  lemma ValueStartComplete(s: string)
    requires |s| == 0 || !IsSpace(s[|s| - 1])
    requires Matches(s)
    ensures ValueStart(s).Some?
  {
    var e: nat, j: nat :| Assignment(s, e, j);
    assert forall k :: |Key| <= k < e ==> s[|Key|..e][k - |Key|] == s[k];
    assert SkipSpaces(s, |Key|) == e;
    var j0 := SkipSpaces(s, e + 1);
    assert forall k :: e + 1 <= k < j ==> s[e + 1..j][k - (e + 1)] == s[k];
    assert j <= j0 < |s|;
    assert forall k :: j0 <= k < |s| ==> s[j..][k - j] == s[k];
    assert '\n' !in s[j0..];
  }

  /** On a stripped line the scanner finds a value exactly when the
      pattern matches, and the value it finds is the captured group. */
  lemma ValueStartMatches(s: string)
    requires |s| == 0 || !IsSpace(s[|s| - 1])
    ensures ValueStart(s).Some? <==> Matches(s)
    ensures ValueStart(s).Some? ==> Captures(s, s[ValueStart(s).value..])
  {
    if ValueStart(s).Some? { ValueStartSound(s); }
    if Matches(s) { ValueStartComplete(s); }
  }

  /** One manifest line: the reference it contributes, if any. The line is
      stripped before matching and the group is stripped again. A line
      contributes exactly when the pattern matches the stripped line, and
      what it contributes is the non-empty captured group, which has no
      space at either end. */
  function ParseLine(line: string): (r: Option<string>)
    ensures r.Some? <==> Matches(Strip(line))
    ensures r.Some? ==> Captures(Strip(line), r.value) && Strip(r.value) == r.value
  {
    var s := Strip(line);
    ValueStartMatches(s);
    match ValueStart(s)
    case None => None
    case Some(j) =>
      StripUnpadded(s[j..]);
      Some(Strip(s[j..]))
  }

  /** The values `f` yields over `xs`, in any order. */
  function Collect<T>(xs: seq<T>, f: T -> Option<string>): (r: set<string>)
    ensures forall v :: v in r <==> exists i :: 0 <= i < |xs| && f(xs[i]) == Some(v)
  {
    if |xs| == 0 then {}
    else
      var init := Collect(xs[..|xs| - 1], f);
      assert forall i :: 0 <= i < |xs| - 1 ==> xs[..|xs| - 1][i] == xs[i];
      match f(xs[|xs| - 1])
      case None => init
      case Some(v) => init + {v}
  }

  /** The references the lines of one manifest contribute: `update` with
      the stripped group of every matching line. */
  function LinesRefs(lines: seq<string>): (r: set<string>)
    ensures forall v :: v in r <==> exists i :: 0 <= i < |lines| && ParseLine(lines[i]) == Some(v)
  {
    Collect(lines, ParseLine)
  }

  /** Line `i` of the manifest at `p`, one of the `.ini` files under `root`. */
  ghost predicate ManifestLine(tree: Tree, root: Path, p: Path, i: int) {
    && p in tree
    && Below(p, root)
    && tree[p].File?
    && IsManifest(Name(p))
    && tree[p].readable
    && 0 <= i < |tree[p].lines|
  }

  /** `rglob('*.ini')` yields an entry under `root` that `open` or the
      read refuses: a directory, or a file that is not readable. */
  predicate ManifestUnopenable(tree: Tree, root: Path) {
    exists p :: p in tree && Below(p, root) && IsManifest(Name(p)) && (tree[p].Dir? || !tree[p].readable)
  }

  /** The reference set of the sweep: every name a manifest line under
      `root` contributes. `None` when a directory or an unreadable file with a
      manifest name lies under `root`; opening or reading it raises and the
      error leaves the sync. */
  function References(tree: Tree, root: Path): (r: Option<set<string>>)
    ensures r.None? <==> ManifestUnopenable(tree, root)
    ensures r.Some? ==> forall v :: v in r.value <==>
      exists p, i :: ManifestLine(tree, root, p, i) && ParseLine(tree[p].lines[i]) == Some(v)
  {
    if ManifestUnopenable(tree, root) then None
    else
      var refs := set p, v | p in tree && Below(p, root) && tree[p].File? && IsManifest(Name(p))
                             && tree[p].readable && v in LinesRefs(tree[p].lines) :: v;
      assert forall v :: v in refs <==>
          exists p, i :: ManifestLine(tree, root, p, i) && ParseLine(tree[p].lines[i]) == Some(v) by {
        forall v ensures v in refs <==>
            exists p, i :: ManifestLine(tree, root, p, i) && ParseLine(tree[p].lines[i]) == Some(v) {
          if exists p, i :: ManifestLine(tree, root, p, i) && ParseLine(tree[p].lines[i]) == Some(v) {
            var p, i :| ManifestLine(tree, root, p, i) && ParseLine(tree[p].lines[i]) == Some(v);
            assert v in LinesRefs(tree[p].lines);
          }
        }
      }
      Some(refs)
  }
}

=== FILE: speedtest.dfy ===
/** The connection helpers of the speed test: the reachability probe, the
    mirror recommendation, the speed arithmetic and the environment set-up
    for the Hugging Face client. The HEAD requests are a probe passed in. */
module SpeedTest {
  import Sync

  const MainSite := "https://huggingface.co"
  const MirrorSite := Sync.MirrorEndpoint
  const HomeVar := "HF_HOME"
  const ProgressVar := "HF_HUB_DISABLE_PROGRESS_BARS"

  /** The outcome of `requests.head(url, timeout=timeout)`: a status code,
      or a `RequestException` (timeouts and connection errors included). */
  datatype HeadResponse = Status(code: int) | RequestError

  /** `test_connection`: reachable exactly on status 200. */
  predicate TestConnection(r: HeadResponse) {
    match r
    case Status(code) => code == 200
    case RequestError => false
  }

  /** The recommendation and the sites probed for it, in order. */
  datatype MirrorDecision = MirrorDecision(useMirror: bool, probed: seq<string>)

  /** `determine_mirror_setting`: the mirror is recommended exactly when the
      main site does not answer 200 and the mirror does; the main site is
      probed first, and the mirror only when the main site failed. */
  function DetermineMirrorSetting(probe: string -> HeadResponse): (d: MirrorDecision)
    ensures d.useMirror <==> probe(MainSite) != Status(200) && probe(MirrorSite) == Status(200)
    ensures d.probed == [MainSite] || d.probed == [MainSite, MirrorSite]
    ensures MirrorSite in d.probed <==> probe(MainSite) != Status(200)
  {
    if !TestConnection(probe(MainSite)) then
      MirrorDecision(TestConnection(probe(MirrorSite)), [MainSite, MirrorSite])
    else
      MirrorDecision(false, [MainSite])
  }

  /** `calculate_speed_mbps(start_time, end_time, downloaded_bytes)`: zero
      unless both the duration and the byte count are positive; otherwise
      the megabits per second, so that speed times duration gives back
      the bits downloaded. */
  function CalculateSpeedMbps(start: real, end: real, bytes: int): (mbps: real)
    ensures mbps >= 0.0
    ensures mbps > 0.0 <==> end - start > 0.0 && bytes > 0
    ensures mbps > 0.0 ==> mbps * (end - start) * 1000000.0 == bytes as real * 8.0
  {
    var duration := end - start;
    if duration > 0.0 && bytes > 0 then
      var bits := bytes as real * 8.0;
      var bps := bits / duration;
      assert bps * duration == bits;
      assert bps > 0.0;
      bps / 1000000.0
    else
      0.0
  }

  /** For a fixed duration the speed grows with the bytes downloaded. */
  lemma SpeedMonotone(start: real, end: real, b1: int, b2: int)
    requires end - start > 0.0 && 0 < b1 <= b2
    ensures CalculateSpeedMbps(start, end, b1) <= CalculateSpeedMbps(start, end, b2)
  {
    var d := end - start;
    var s1 := CalculateSpeedMbps(start, end, b1);
    var s2 := CalculateSpeedMbps(start, end, b2);
    assert s1 * d * 1000000.0 <= s2 * d * 1000000.0;
    assert s1 * (d * 1000000.0) <= s2 * (d * 1000000.0);
  }

  /** `setup_hf_environment(use_mirror)` with the cache directory `cacheDir`:
      the cache location and the progress-bar switch are set, the endpoint
      variable names the mirror when it is used and is absent otherwise,
      and no other variable changes. */
  function SetupHfEnvironment(env: Sync.Env, useMirror: bool, cacheDir: string): (e: Sync.Env)
    ensures HomeVar in e && e[HomeVar] == cacheDir
    ensures ProgressVar in e && e[ProgressVar] == "1"
    ensures Sync.EndpointVar in e <==> useMirror
    ensures useMirror ==> e[Sync.EndpointVar] == MirrorSite
    ensures forall k :: k != HomeVar && k != ProgressVar && k != Sync.EndpointVar ==>
      (k in e <==> k in env) && (k in env ==> e[k] == env[k])
  {
    var e := env[HomeVar := cacheDir][ProgressVar := "1"];
    if useMirror then e[Sync.EndpointVar := MirrorSite]
    else if Sync.EndpointVar in e then e - {Sync.EndpointVar}
    else e
  }

  /** Setting the environment up twice is the same as once. */
  lemma SetupIdempotent(env: Sync.Env, useMirror: bool, cacheDir: string)
    ensures var once := SetupHfEnvironment(env, useMirror, cacheDir);
      SetupHfEnvironment(once, useMirror, cacheDir) == once
  {
    var once := SetupHfEnvironment(env, useMirror, cacheDir);
    var twice := SetupHfEnvironment(once, useMirror, cacheDir);
    assert twice.Keys == once.Keys;
    assert forall k :: k in twice ==> twice[k] == once[k];
  }

  /** The speed test and the sync agree on the mirror endpoint when the
      mirror is used; without it the sync keeps an endpoint already set,
      which the speed test removes. */
  lemma EndpointAgreement(env: Sync.Env, cacheDir: string)
    ensures SetupHfEnvironment(env, true, cacheDir)[Sync.EndpointVar] == Sync.MirrorEnv(env, true)[Sync.EndpointVar]
    ensures Sync.EndpointVar in env ==>
      Sync.EndpointVar in Sync.MirrorEnv(env, false) && Sync.EndpointVar !in SetupHfEnvironment(env, false, cacheDir)
  {
  }
}

=== FILE: sweep.dfy ===
/** The clean-up pass of a sync: every `.png`/`.dds` file under the install
    directory whose bare name no manifest references is unlinked. The
    directory walk is `rglob('*')`, whose order the operating system
    decides; it is an input here. */
module Sweep {
  import opened FileTree

  /** `p` is a file the sweep is meant to remove: under `root`, with a
      texture suffix, and with a name outside the reference set. Only the
      bare name is compared, so one reference anywhere protects every file
      of that name everywhere under `root`. */
  predicate Stale(tree: Tree, root: Path, refs: set<string>, p: Path) {
    p in tree && Below(p, root) && IsTexture(Name(p)) && Name(p) !in refs
  }

  /** Every file the sweep is meant to remove. */
  function StaleSet(tree: Tree, root: Path, refs: set<string>): set<Path> {
    set p | p in tree && Stale(tree, root, refs, p)
  }

  /** `unlink(missing_ok=True)` succeeds on the entry: a plain file the
      system lets go of. A directory or a locked file raises instead. */
  predicate Deletable(n: Node) {
    n.File? && !n.locked
  }

  /** The sweep either finishes, having removed `removed` files, or stops at
      the first entry that could not be unlinked; the error then leaves the
      sync with the files removed so far gone. */
  datatype SweepResult = Swept(tree: Tree, removed: nat) | Crashed(tree: Tree, at: Path)

  /** Every stale entry of `listing` can be unlinked. */
  predicate ListedDeletable(tree: Tree, root: Path, refs: set<string>, listing: seq<Path>) {
    forall p :: p in listing && Stale(tree, root, refs, p) ==> Deletable(tree[p])
  }

  /** `after` keeps some of the entries of `before`, unchanged, and adds none. */
  predicate Kept(after: Tree, before: Tree) {
    && after.Keys <= before.Keys
    && forall p :: p in after ==> after[p] == before[p]
  }

  /** Every entry `after` lacks was a stale entry of `listing`. */
  predicate RemovedStale(after: Tree, before: Tree, root: Path, refs: set<string>, listing: seq<Path>) {
    forall p :: p in before && p !in after ==> p in listing && Stale(before, root, refs, p)
  }

  /** No stale entry of `listing` is left. */
  predicate ListedStaleGone(after: Tree, before: Tree, root: Path, refs: set<string>, listing: seq<Path>) {
    forall p :: p in listing && Stale(before, root, refs, p) ==> p !in after
  }

  /** The walk over `listing`. A stale entry is unlinked, or ends the walk
      when it cannot be; every other entry is passed over. The walk
      finishes exactly when every stale entry it visits can be unlinked;
      it only ever removes visited stale entries, and a finished walk
      removes all of them and counts them. */
  function SweepListing(tree: Tree, root: Path, refs: set<string>, listing: seq<Path>): (r: SweepResult)
    ensures r.Swept? <==> ListedDeletable(tree, root, refs, listing)
    ensures Kept(r.tree, tree)
    ensures RemovedStale(r.tree, tree, root, refs, listing)
    ensures r.Swept? ==> ListedStaleGone(r.tree, tree, root, refs, listing)
    ensures r.Swept? ==> r.removed == |tree| - |r.tree|
    ensures r.Crashed? ==> r.at in listing && Stale(tree, root, refs, r.at) && !Deletable(tree[r.at])
    decreases |listing|
  {
    if |listing| == 0 then Swept(tree, 0)
    else
      var p := listing[0];
      assert forall q :: q in listing <==> q == p || q in listing[1..];
      if Stale(tree, root, refs, p) then
        if Deletable(tree[p]) then
          var rest := tree - {p};
          assert |rest| == |tree| - 1 by { assert rest.Keys == tree.Keys - {p}; }
          assert forall q :: q in rest ==> (Stale(rest, root, refs, q) <==> Stale(tree, root, refs, q));
          match SweepListing(rest, root, refs, listing[1..])
          case Swept(t, n) => Swept(t, n + 1)
          case Crashed(t, at) => Crashed(t, at)
        else Crashed(tree, p)
      else SweepListing(tree, root, refs, listing[1..])
  }

  /** Removing a subset takes its size off. */
  lemma CardDiff<T>(a: set<T>, b: set<T>)
    requires b <= a
    ensures |a - b| == |a| - |b|
  {
    assert a == (a - b) + b;
    assert (a - b) * b == {};
  }

  /** A walk that visits every entry under the root visits every stale entry. */
  lemma StaleListed(tree: Tree, root: Path, refs: set<string>, listing: seq<Path>)
    requires forall p :: p in tree && Below(p, root) ==> p in listing
    ensures forall p :: p in StaleSet(tree, root, refs) <==> p in listing && Stale(tree, root, refs, p)
  {
  }

  /** With a walk that visits every entry under the root (as `rglob('*')`
      does), a finished sweep leaves exactly the non-stale entries,
      unchanged, and counts the stale ones; it finishes exactly when every
      stale entry can be unlinked. */
  lemma {:induction false} CompleteSweep(tree: Tree, root: Path, refs: set<string>, listing: seq<Path>)
    requires forall p :: p in tree && Below(p, root) ==> p in listing
    ensures SweepListing(tree, root, refs, listing).Swept? <==>
      forall p :: p in StaleSet(tree, root, refs) ==> Deletable(tree[p])
    ensures SweepListing(tree, root, refs, listing).Swept? ==>
      && SweepListing(tree, root, refs, listing).tree == tree - StaleSet(tree, root, refs)
      && SweepListing(tree, root, refs, listing).removed == |StaleSet(tree, root, refs)|
  {
    var r := SweepListing(tree, root, refs, listing);
    var stale := StaleSet(tree, root, refs);
    StaleListed(tree, root, refs, listing);
    assert ListedDeletable(tree, root, refs, listing) <==> forall p :: p in stale ==> Deletable(tree[p]);
    if r.Swept? {
      SweptLeavesFresh(tree, r.tree, root, refs, listing, stale);
      CardDiff(tree.Keys, stale);
    }
  }

  /** A finished walk that visited every stale entry leaves the tree minus those entries. */
  lemma SweptLeavesFresh(tree: Tree, after: Tree, root: Path, refs: set<string>, listing: seq<Path>, stale: set<Path>)
    requires forall p :: p in stale <==> p in listing && Stale(tree, root, refs, p)
    requires Kept(after, tree)
    requires RemovedStale(after, tree, root, refs, listing)
    requires ListedStaleGone(after, tree, root, refs, listing)
    ensures after == tree - stale && stale <= tree.Keys
  {
    assert after.Keys == tree.Keys - stale;
  }

  /** A finished walk never unlinks a directory: an entry is a directory
      after the walk exactly when it was one before. */
  lemma SweptKeepsDirs(tree: Tree, root: Path, refs: set<string>, listing: seq<Path>, p: Path)
    requires SweepListing(tree, root, refs, listing).Swept?
    ensures var after := SweepListing(tree, root, refs, listing).tree;
      (p in after && after[p].Dir?) <==> (p in tree && tree[p].Dir?)
  {
    var after := SweepListing(tree, root, refs, listing).tree;
    assert p in tree && p !in after ==> p in listing && Stale(tree, root, refs, p);
    assert p in listing && Stale(tree, root, refs, p) ==> Deletable(tree[p]);
  }
}

=== FILE: sync.dfy ===
/** `sync_repo`: validate the variant, pick and create the install
    directory, fetch the variant's folders in order, sweep unreferenced
    textures, then write and upload a diagnostic log. The content store,
    the directory walk, the clocks and the log store are services passed in. */
module Sync {
  import opened Wrappers
  import opened Text
  import opened Catalog
  import opened FileTree
  import Manifest
  import Sweep

  /** Process environment variables. */
  type Env = map<string, string>

  const EndpointVar := "HF_ENDPOINT"
  const MirrorEndpoint := "https://hf-mirror.com"
  const Completed := "All operations completed!"
  const CleaningUp := "Download and Verification Complete. Cleaning Up..."
  const Cleaned := "Cleaned unused files."
  const NoNetworkInfo := "Unavailable"

  /** What one `snapshot_download` call does to the tree: it finishes, with
      the text it printed, or raises, possibly after writing some files. */
  datatype FetchResult = Fetched(tree: Tree, output: string) | FetchFailed(tree: Tree, error: string)

  /** One `snapshot_download` call: the folder it fetched (with pattern
      `Pattern(folder)`), the tree it started from, and its result. */
  datatype FetchCall = FetchCall(folder: string, before: Tree, result: FetchResult)

  /** Everything `sync_repo` consults outside its own logic.
      - `fetch(pattern, dir, tree)`: `snapshot_download` of the content repository into `dir`;
      - `listing(tree, root)`: the order in which `root.rglob('*')` yields entries;
      - `hardware`: what `get_hardware_info` returns (it never raises);
      - `timeService`: the `dateTime` field of the time service, when it answered with status 200;
      - `clock`: `datetime.now(timezone.utc).isoformat()`;
      - `network`: the geolocation answer, when the request succeeded and was non-empty;
      - `writeError`: the error `open(local_log_path, 'w')` raises, if any;
      - `upload(local, remote)`: the error `upload_file` raises, if any;
      - `removeError`: the `OSError` unlinking the uploaded log raises, if any. */
  datatype Services = Services(
    fetch: (string, Path, Tree) -> FetchResult,
    listing: (Tree, Path) -> seq<Path>,
    hardware: string,
    timeService: Option<string>,
    clock: string,
    network: Option<string>,
    writeError: Option<string>,
    upload: (Path, string) -> Option<string>,
    removeError: Option<string>)

  /** The `allow_patterns` argument for one remote folder. */
  function Pattern(folder: string): string {
    folder + "/*"
  }

  function Downloading(folder: string): string {
    "Downloading '" + folder + "'..."
  }

  /** The install directory: the Mods folder itself for Mini, its
      `local_dir` sub-directory for every other variant. */
  function InstallDir(mods: string, variant: string): (dir: Path)
    requires variant in VariantMap()
    ensures |dir| > 0 && dir[0] == mods
    ensures variant == MiniName <==> dir == [mods]
    ensures variant != MiniName ==> dir == [mods, VariantMap()[variant].localDir]
  {
    if variant != MiniName then [mods, VariantMap()[variant].localDir] else [mods]
  }

  /** The directories `dir.mkdir(parents=True, exist_ok=True)` ensures exist. */
  function Prefixes(dir: Path): set<Path> {
    set k | 1 <= k <= |dir| :: dir[..k]
  }

  /** `mkdir(parents=True, exist_ok=True)`: fails when the directory or one
      of its parents is a file; otherwise every entry stays and the
      directory and its parents exist. */
  function MakeDirs(tree: Tree, dir: Path): (r: Option<Tree>)
    requires |dir| > 0
    ensures r.None? <==> exists q :: q in Prefixes(dir) && q in tree && tree[q].File?
    ensures r.Some? ==> dir in r.value && r.value[dir] == Dir
    ensures r.Some? ==> forall p :: p in tree ==> p in r.value && r.value[p] == tree[p]
    ensures r.Some? ==> forall p :: p in r.value && p !in tree ==> p in Prefixes(dir)
  {
    if exists q :: q in Prefixes(dir) && q in tree && tree[q].File? then None
    else
      assert dir[..|dir|] == dir;
      Some(tree + map q | q in Prefixes(dir) :: Dir)
  }

  /** The download loop: the folders' fetches, in order, stopping at the
      first that raises, and the text captured from standard output while
      it ran (each status line is printed there too). */
  datatype FetchRun = FetchRun(tree: Tree, calls: seq<FetchCall>, captured: string, failure: Option<string>)

  /** Each call fetched its own folder, in catalog order, from the tree the
      previous call left. */
  ghost predicate Chained(calls: seq<FetchCall>, folders: seq<string>, dir: Path, tree: Tree, fetch: (string, Path, Tree) -> FetchResult) {
    && |calls| <= |folders|
    && (|calls| > 0 ==> calls[0].before == tree)
    && (forall i :: 0 <= i < |calls| ==>
          calls[i].folder == folders[i] && calls[i].result == fetch(Pattern(calls[i].folder), dir, calls[i].before))
    && (forall i :: 0 <= i < |calls| - 1 ==> Follows(calls, i))
  }

  /** Call `i` succeeded and call `i + 1` started from the tree it left. */
  ghost predicate Follows(calls: seq<FetchCall>, i: int)
    requires 0 <= i < |calls| - 1
  {
    calls[i].result.Fetched? && calls[i + 1].before == calls[i].result.tree
  }

  /** Every call succeeded. */
  ghost predicate AllFetched(calls: seq<FetchCall>) {
    forall i :: 0 <= i < |calls| ==> calls[i].result.Fetched?
  }

  /** A successful first fetch followed by a chained run over the other folders is a chained run. */
  lemma ChainCons(call: FetchCall, rest: seq<FetchCall>, folders: seq<string>, dir: Path, tree: Tree,
                  fetch: (string, Path, Tree) -> FetchResult)
    requires |folders| > 0
    requires call == FetchCall(folders[0], tree, fetch(Pattern(folders[0]), dir, tree))
    requires call.result.Fetched?
    requires Chained(rest, folders[1..], dir, call.result.tree, fetch)
    ensures Chained([call] + rest, folders, dir, tree, fetch)
    ensures AllFetched(rest) ==> AllFetched([call] + rest)
    ensures |rest| > 0 ==> ([call] + rest)[|rest|] == rest[|rest| - 1]
  {
    var calls := [call] + rest;
    assert forall i :: 0 < i < |calls| ==> calls[i] == rest[i - 1];
    forall i | 0 < i < |calls| ensures folders[i] == folders[1..][i - 1] { }
    forall i | 0 <= i < |calls| - 1 ensures Follows(calls, i) {
      if i > 0 { assert Follows(rest, i - 1); }
    }
  }

  /** `for folder_name in repo_folders_to_target: snapshot_download(...)`
      inside the capture of standard output. A run without failure made one
      successful call per folder; a failed run's last call raised and left
      the tree the run reports. */
  function FetchAll(folders: seq<string>, dir: Path, tree: Tree, fetch: (string, Path, Tree) -> FetchResult): (run: FetchRun)
    ensures Chained(run.calls, folders, dir, tree, fetch)
    ensures run.failure.None? <==> |run.calls| == |folders| && AllFetched(run.calls)
    ensures run.failure.None? ==> run.tree == (if |folders| == 0 then tree else run.calls[|folders| - 1].result.tree)
    ensures run.failure.Some? ==> |run.calls| > 0 && run.calls[|run.calls| - 1].result == FetchFailed(run.tree, run.failure.value)
    decreases |folders|
  {
    if |folders| == 0 then FetchRun(tree, [], "", None)
    else
      var result := fetch(Pattern(folders[0]), dir, tree);
      var call := FetchCall(folders[0], tree, result);
      var line := Downloading(folders[0]) + "\n";
      match result
      case FetchFailed(t, e) => FetchRun(t, [call], line, Some(e))
      case Fetched(t, out) =>
        var rest := FetchAll(folders[1..], dir, t, fetch);
        ChainCons(call, rest.calls, folders, dir, tree, fetch);
        FetchRun(rest.tree, [call] + rest.calls, line + out + rest.captured, rest.failure)
  }

  /** The status lines the download loop reports, one per call. */
  function DownloadStatuses(calls: seq<FetchCall>): (st: seq<string>)
    ensures |st| == |calls|
    ensures forall i :: 0 <= i < |calls| ==> st[i] == Downloading(calls[i].folder)
  {
    seq(|calls|, i requires 0 <= i < |calls| => Downloading(calls[i].folder))
  }

  /** The timestamp of the log: the time service's answer, else the local
      clock, cut before its first `.` (fractional seconds). */
  function UtcTimestamp(timeService: Option<string>, clock: string): (ts: string)
    ensures '.' !in ts
    ensures |ts| <= |match timeService case Some(t) => t case None => clock|
    ensures timeService.Some? ==> ts == timeService.value[..|ts|]
    ensures timeService.None? ==> ts == clock[..|ts|]
    ensures timeService.Some? && |ts| < |timeService.value| ==> timeService.value[|ts|] == '.'
    ensures timeService.None? && |ts| < |clock| ==> clock[|ts|] == '.'
  {
    var s := match timeService case Some(t) => t case None => clock;
    BeforeFirst(s, '.')
  }

  /** Whole seconds keep the whole text; otherwise the fraction and
      everything after it go, from either source. */
  lemma TimestampCut(whole: string, rest: string, clock: string)
    requires '.' !in whole
    ensures UtcTimestamp(Some(whole), clock) == whole
    ensures UtcTimestamp(Some(whole + "." + rest), clock) == whole
    ensures UtcTimestamp(None, whole) == whole
    ensures UtcTimestamp(None, whole + "." + rest) == whole
  {
    BeforeFirstCut(whole, rest, '.');
    assert whole + "." + rest == whole + ['.'] + rest;
  }

  /** The log file name: the timestamp with its colons dropped, `_`, the
      variant and `.json`. The part before the suffix keeps every other
      character of the timestamp and holds no colon. */
  function LogFilename(timestamp: string, variant: string): (name: string)
    ensures |name| >= |variant| + 6
    ensures name[|name| - |variant| - 6..] == "_" + variant + ".json"
    ensures ':' !in name[..|name| - |variant| - 6]
    ensures multiset(name[..|name| - |variant| - 6]) == multiset(timestamp)[':' := 0]
    ensures name[..|name| - |variant| - 6] == RemoveChar(timestamp, ':')
  {
    var stamp := RemoveChar(timestamp, ':');
    var tail := "_" + variant + ".json";
    var name := stamp + tail;
    assert |tail| == |variant| + 6;
    assert name[..|stamp|] == stamp && name[|stamp|..] == tail;
    name
  }

  /** The colons of the timestamp go and the rest keeps its order:
      "03:04" with variant `Core` names `0304_Core.json`. */
  lemma LogFilenameKeepsOrder(a: string, b: string, variant: string)
    requires ':' !in a && ':' !in b
    ensures LogFilename(a + ":" + b, variant) == a + b + "_" + variant + ".json"
  {
    RemoveCharAround(a, b, ':');
    assert a + ":" + b == a + [':'] + b;
  }

  /** The diagnostic record written next to the install. */
  datatype Record = Record(timestamp: string, ip: string, speedMbps: Option<real>, variant: string,
                           hardware: string, fetchLog: seq<string>)

  /** What `sync_repo` hands back: a `(success, message)` pair, or an
      exception it lets through. */
  datatype SyncResult = Returned(ok: bool, message: string) | Raised(error: string)

  /** The whole effect of one `sync_repo` call: its result, the environment
      and tree it leaves, the fetches it made, the status lines it reported,
      the record it assembled, and the upload it attempted (local path and
      path in the log repository). */
  datatype SyncOutcome = SyncOutcome(
    result: SyncResult, env: Env, tree: Tree, calls: seq<FetchCall>, statuses: seq<string>,
    record: Option<Record>, upload: Option<(Path, string)>)

  /** Where the diagnostic log goes and what it holds, once cleaning finished. */
  function LogPath(dir: Path, variant: string, sv: Services): Path {
    dir + [LogFilename(UtcTimestamp(sv.timeService, sv.clock), variant)]
  }

  /** After the log is written: upload it, and on success try to remove
      the local copy. Either failure only adds a status line. The local log
      is gone exactly when both the upload and the removal succeed. */
  function Deliver(tree: Tree, path: Path, remote: string, statuses: seq<string>, sv: Services): (r: (Tree, seq<string>))
    ensures path in r.0 <==> path in tree && (sv.upload(path, remote).Some? || sv.removeError.Some?)
    ensures forall p :: p != path ==> (p in r.0 <==> p in tree) && (p in r.0 ==> r.0[p] == tree[p])
    ensures path in r.0 ==> r.0[path] == tree[path]
    ensures |r.1| >= |statuses| && r.1[..|statuses|] == statuses
  {
    match sv.upload(path, remote)
    case Some(e) => (tree, statuses + ["Log upload failed: " + e])
    case None =>
      match sv.removeError
      case Some(e) => (tree, statuses + ["Could not remove local log file: " + e])
      case None => (tree - {path}, statuses)
  }

  /** The reporting step after a finished sweep: assemble the record and
      write it next to the install (an error here leaves the sync), then
      deliver it. Whatever the delivery does, the result is success. */
  function Report(tree: Tree, dir: Path, variant: string, speed: Option<real>, captured: string,
                  env: Env, calls: seq<FetchCall>, statuses: seq<string>, sv: Services): (o: SyncOutcome)
    ensures var path := LogPath(dir, variant, sv);
      && (o.result.Raised? <==> (path in tree && tree[path].Dir?) || sv.writeError.Some?)
      && (o.result.Returned? ==> o.result == Returned(true, Completed))
      && (o.upload.Some? <==> o.result.Returned?)
      && (o.upload.Some? ==> o.upload.value == (path, "logs/" + Name(path)))
      && (o.upload.Some? ==> (path in o.tree <==> sv.upload(path, "logs/" + Name(path)).Some? || sv.removeError.Some?))
      && (forall p :: p != path ==> (p in o.tree <==> p in tree) && (p in o.tree ==> o.tree[p] == tree[p]))
    ensures o.record.Some? && o.record.value.variant == variant && o.record.value.speedMbps == speed
    ensures |o.statuses| >= |statuses| && o.statuses[..|statuses|] == statuses
  {
    var path := LogPath(dir, variant, sv);
    var ts := UtcTimestamp(sv.timeService, sv.clock);
    var name := Name(path);
    var ip := match sv.network case Some(info) => info case None => NoNetworkInfo;
    var record := Record(ts, ip, speed, variant, sv.hardware, Split(Strip(captured), '\n'));
    if (path in tree && tree[path].Dir?) || sv.writeError.Some? then
      var e := match sv.writeError case Some(e) => e case None => "the log path is a directory";
      SyncOutcome(Raised(e), env, tree, calls, statuses, Some(record), None)
    else
      var written := tree[path := File([], false, true)];
      var remote := "logs/" + name;
      var (t, st) := Deliver(written, path, remote, statuses, sv);
      SyncOutcome(Returned(true, Completed), env, t, calls, st, Some(record), Some((path, remote)))
  }

  /** The environment after the mirror switch at the top of `sync_repo`. */
  function MirrorEnv(env: Env, useMirror: bool): (e: Env)
    ensures useMirror ==> EndpointVar in e && e[EndpointVar] == MirrorEndpoint
    ensures !useMirror ==> e == env
    ensures forall k :: k != EndpointVar ==> (k in e <==> k in env) && (k in env ==> e[k] == env[k])
  {
    if useMirror then env[EndpointVar := MirrorEndpoint] else env
  }

  /** `open(local_log_path, 'w')` meets a directory of that name. */
  predicate LogBlocked(tree: Tree, dir: Path, variant: string, sv: Services) {
    var path := LogPath(dir, variant, sv);
    path in tree && tree[path].Dir?
  }

  /** The clean-up raises exactly when a manifest under `dir` cannot be
      opened, the walk visits a stale texture it cannot unlink, or the log
      cannot be written, all judged on the tree the downloads left. */
  predicate CleanUpRaises(tree: Tree, dir: Path, variant: string, sv: Services) {
    match Manifest.References(tree, dir)
    case None => true
    case Some(refs) =>
      || !Sweep.ListedDeletable(tree, dir, refs, sv.listing(tree, dir))
      || LogBlocked(tree, dir, variant, sv)
      || sv.writeError.Some?
  }

  /** The cleaning and reporting after a complete download: read the
      manifests, sweep, and report. It raises exactly when `CleanUpRaises`
      says so; otherwise it returns success, with an upload attempted. */
  function CleanUp(tree: Tree, dir: Path, variant: string, speed: Option<real>, captured: string,
                   env: Env, calls: seq<FetchCall>, statuses: seq<string>, sv: Services): (o: SyncOutcome)
    ensures o.env == env && o.calls == calls
    ensures o.result.Raised? <==> CleanUpRaises(tree, dir, variant, sv)
    ensures o.result.Returned? ==> o.result == Returned(true, Completed) && o.upload.Some?
    ensures o.upload.Some? ==> o.result == Returned(true, Completed)
  {
    match Manifest.References(tree, dir)
    case None => SyncOutcome(Raised("a manifest could not be opened"), env, tree, calls, statuses, None, None)
    case Some(refs) =>
      var listing := sv.listing(tree, dir);
      match Sweep.SweepListing(tree, dir, refs, listing)
      case Crashed(t, _) => SyncOutcome(Raised("a texture could not be removed"), env, t, calls, statuses, None, None)
      case Swept(t, _) =>
        Sweep.SweptKeepsDirs(tree, dir, refs, listing, LogPath(dir, variant, sv));
        Report(t, dir, variant, speed, captured, env, calls, statuses + [Cleaned], sv)
  }

  /** Everything after the download loop: report a fetch failure, or clean up. */
  function AfterDownload(run: FetchRun, dir: Path, variant: string, speed: Option<real>, env: Env, sv: Services): (o: SyncOutcome)
    ensures o.env == env && o.calls == run.calls
    ensures run.failure.Some? ==>
      o == SyncOutcome(Returned(false, "An error occurred: " + run.failure.value), env, run.tree, run.calls,
                       DownloadStatuses(run.calls) + ["Error during download: " + run.failure.value], None, None)
    ensures o.result.Returned? && o.result.ok ==> run.failure.None? && o.result.message == Completed && o.upload.Some?
    ensures o.upload.Some? ==> o.result == Returned(true, Completed)
    ensures run.failure.None? ==> (o.result == Returned(true, Completed) <==> !CleanUpRaises(run.tree, dir, variant, sv))
  {
    match run.failure
    case Some(e) =>
      SyncOutcome(Returned(false, "An error occurred: " + e), env, run.tree, run.calls,
                  DownloadStatuses(run.calls) + ["Error during download: " + e], None, None)
    case None =>
      CleanUp(run.tree, dir, variant, speed, run.captured, env, run.calls, DownloadStatuses(run.calls) + [CleaningUp], sv)
  }

  /** The properties of a run of a known variant that the caller sees. */
  ghost predicate KnownRunFacts(o: SyncOutcome, folders: seq<string>) {
    && |o.calls| <= |folders|
    && (forall i :: 0 <= i < |o.calls| ==> o.calls[i].folder == folders[i])
    && (o.result.Returned? && !o.result.ok ==>
          && |o.calls| > 0
          && o.calls[|o.calls| - 1].result.FetchFailed?
          && o.result.message == "An error occurred: " + o.calls[|o.calls| - 1].result.error
          && o.tree == o.calls[|o.calls| - 1].result.tree
          && o.record.None? && o.upload.None?)
    && (o.result.Returned? && o.result.ok ==>
          && |o.calls| == |folders|
          && AllFetched(o.calls))
    && (o.result.Returned? && o.result.ok ==> o.result.message == Completed && o.upload.Some?)
    && (o.upload.Some? ==> o.result == Returned(true, Completed))
  }

  /** What the fetch loop promises carries over to the whole run. */
  lemma AfterDownloadFacts(run: FetchRun, folders: seq<string>, dir: Path, tree: Tree, variant: string,
                           speed: Option<real>, env: Env, sv: Services)
    requires run == FetchAll(folders, dir, tree, sv.fetch)
    ensures KnownRunFacts(AfterDownload(run, dir, variant, speed, env, sv), folders)
  {
    var o := AfterDownload(run, dir, variant, speed, env, sv);
    assert Chained(run.calls, folders, dir, tree, sv.fetch);
    assert o.calls == run.calls;
    match run.failure
    case Some(e) =>
      assert o.result == Returned(false, "An error occurred: " + e) && o.tree == run.tree;
      assert o.record.None? && o.upload.None?;
      FailedRunFacts(o, folders, e);
    case None =>
      assert o.result.Returned? ==> o.result == Returned(true, Completed) && o.upload.Some?;
      assert o.upload.Some? ==> o.result == Returned(true, Completed);
      CompletedRunFacts(o, folders);
  }

  /** A run stopped by a failed fetch, seen from outside. */
  lemma FailedRunFacts(o: SyncOutcome, folders: seq<string>, e: string)
    requires |o.calls| <= |folders| && forall i :: 0 <= i < |o.calls| ==> o.calls[i].folder == folders[i]
    requires |o.calls| > 0 && o.calls[|o.calls| - 1].result == FetchFailed(o.tree, e)
    requires o.result == Returned(false, "An error occurred: " + e)
    requires o.record.None? && o.upload.None?
    ensures KnownRunFacts(o, folders)
  {
  }

  /** A run whose fetches all succeeded, seen from outside. */
  lemma CompletedRunFacts(o: SyncOutcome, folders: seq<string>)
    requires |o.calls| == |folders| && AllFetched(o.calls)
    requires forall i :: 0 <= i < |o.calls| ==> o.calls[i].folder == folders[i]
    requires o.result.Returned? ==> o.result == Returned(true, Completed) && o.upload.Some?
    requires o.upload.Some? ==> o.result == Returned(true, Completed)
    ensures KnownRunFacts(o, folders)
  {
  }

  /** The tree a chain of successful fetches leaves: the last one's, or
      the starting tree when there were none. */
  ghost function Downloaded(start: Tree, calls: seq<FetchCall>): Tree {
    if |calls| == 0 then start else calls[|calls| - 1].result.tree
  }

  /** How a known variant's run is tied to its install directory and the
      content store: creating `dir` fails and nothing is fetched, or the
      calls are the chained fetches of each folder (pattern
      `Pattern(folder)`) into `dir` from the tree `mkdir` left, running
      either to the end with every fetch successful or to the first failed
      one. A failed fetch ends the run with `(False, "An error occurred: e")`
      and the tree it left; once every fetch succeeded, the run ends in
      success exactly when the clean-up cannot raise on the downloaded tree. */
  ghost predicate InstallFacts(o: SyncOutcome, folders: seq<string>, dir: Path, tree: Tree, variant: string, sv: Services)
    requires |dir| > 0
  {
    match MakeDirs(tree, dir)
    case None => o.result.Raised? && o.calls == [] && o.tree == tree
    case Some(t) => FetchedRunFacts(o, folders, dir, t, variant, sv)
  }

  /** The run after `mkdir` left `t`: see `InstallFacts`. */
  ghost predicate FetchedRunFacts(o: SyncOutcome, folders: seq<string>, dir: Path, t: Tree, variant: string, sv: Services) {
    && Chained(o.calls, folders, dir, t, sv.fetch)
    && ((|o.calls| == |folders| && AllFetched(o.calls)) || (|o.calls| > 0 && o.calls[|o.calls| - 1].result.FetchFailed?))
    && (|o.calls| > 0 && o.calls[|o.calls| - 1].result.FetchFailed? ==>
          && o.result == Returned(false, "An error occurred: " + o.calls[|o.calls| - 1].result.error)
          && o.tree == o.calls[|o.calls| - 1].result.tree)
    && (|o.calls| == |folders| && AllFetched(o.calls) ==>
          (o.result == Returned(true, Completed) <==> !CleanUpRaises(Downloaded(t, o.calls), dir, variant, sv)))
  }

  /** The install facts of a run after `mkdir` succeeded. */
  lemma AfterDownloadInstalls(run: FetchRun, folders: seq<string>, dir: Path, t: Tree, variant: string,
                              speed: Option<real>, env: Env, sv: Services)
    requires run == FetchAll(folders, dir, t, sv.fetch)
    ensures FetchedRunFacts(AfterDownload(run, dir, variant, speed, env, sv), folders, dir, t, variant, sv)
  {
    var o := AfterDownload(run, dir, variant, speed, env, sv);
    assert o.calls == run.calls;
    match run.failure
    case Some(e) =>
      assert run.calls[|run.calls| - 1].result == FetchFailed(run.tree, e);
      assert !AllFetched(run.calls);
    case None =>
      assert |run.calls| == |folders| && AllFetched(run.calls);
      assert run.tree == Downloaded(t, run.calls);
      assert |run.calls| > 0 ==> run.calls[|run.calls| - 1].result.Fetched?;
  }

  /** `sync_repo` past the variant check, for a catalog entry's folders and install directory. */
  function SyncKnown(folders: seq<string>, dir: Path, variant: string, speed: Option<real>,
                     env: Env, tree: Tree, sv: Services): (o: SyncOutcome)
    requires |dir| > 0
    ensures o.env == env
    ensures KnownRunFacts(o, folders)
    ensures InstallFacts(o, folders, dir, tree, variant, sv)
  {
    match MakeDirs(tree, dir)
    case None => SyncOutcome(Raised("cannot create the install directory"), env, tree, [], [], None, None)
    case Some(t) =>
      var run := FetchAll(folders, dir, t, sv.fetch);
      AfterDownloadFacts(run, folders, dir, t, variant, speed, env, sv);
      AfterDownloadInstalls(run, folders, dir, t, variant, speed, env, sv);
      AfterDownload(run, dir, variant, speed, env, sv)
  }

  /** `sync_repo(mods_folder, variant, use_mirror, ..., download_speed_mbps=speed)`.
      The mirror switch happens before anything else, even for an unknown
      variant; an unknown variant is refused with nothing fetched and the
      tree untouched. */
  function SyncRepo(mods: string, variant: string, useMirror: bool, speed: Option<real>,
                    env: Env, tree: Tree, sv: Services): (o: SyncOutcome)
    ensures o.env == MirrorEnv(env, useMirror)
    ensures variant !in VariantMap() ==>
      o == SyncOutcome(Returned(false, "Error: Unknown variant '" + variant + "'."), o.env, tree, [], [], None, None)
    ensures variant in VariantMap() ==> KnownRunFacts(o, VariantMap()[variant].folders)
    ensures variant in VariantMap() ==>
      InstallFacts(o, VariantMap()[variant].folders, InstallDir(mods, variant), tree, variant, sv)
  {
    var env1 := MirrorEnv(env, useMirror);
    if variant !in VariantMap() then
      SyncOutcome(Returned(false, "Error: Unknown variant '" + variant + "'."), env1, tree, [], [], None, None)
    else
      SyncKnown(VariantMap()[variant].folders, InstallDir(mods, variant), variant, speed, env1, tree, sv)
  }

  /** With a walk that visits everything under the install directory, a
      clean-up that returns has removed exactly the stale textures the
      manifests leave unreferenced; apart from the log file, every other
      entry is still there, unchanged. */
  lemma CleanUpRemovesStale(tree: Tree, dir: Path, variant: string, speed: Option<real>, captured: string,
                            env: Env, calls: seq<FetchCall>, statuses: seq<string>, sv: Services)
    requires forall p :: p in tree && Below(p, dir) ==> p in sv.listing(tree, dir)
    ensures var o := CleanUp(tree, dir, variant, speed, captured, env, calls, statuses, sv);
      o.result.Returned? ==>
        && Manifest.References(tree, dir).Some?
        && var stale := Sweep.StaleSet(tree, dir, Manifest.References(tree, dir).value);
           forall p :: p != LogPath(dir, variant, sv) ==>
             (p in o.tree <==> p in tree && p !in stale) && (p in o.tree ==> o.tree[p] == tree[p])
  {
    var o := CleanUp(tree, dir, variant, speed, captured, env, calls, statuses, sv);
    if o.result.Returned? {
      var refs := Manifest.References(tree, dir).value;
      var listing := sv.listing(tree, dir);
      Sweep.CompleteSweep(tree, dir, refs, listing);
      var swept := Sweep.SweepListing(tree, dir, refs, listing);
      assert swept.Swept?;
      assert o == Report(swept.tree, dir, variant, speed, captured, env, calls, statuses + [Cleaned], sv);
    }
  }

  /** `rglob('*')` yields every entry under `dir`, whatever the tree. */
  ghost predicate CompleteWalk(sv: Services, dir: Path) {
    forall t: Tree, p :: p in t && Below(p, dir) ==> p in sv.listing(t, dir)
  }

  /** A successful `sync_repo` of a catalog variant, with a walk that
      visits everything: the install directory was created, and apart from
      the log file the final tree is the downloaded tree minus exactly its
      stale textures under `InstallDir` — the Mods folder itself for Mini. */
  lemma SyncRemovesStale(mods: string, variant: string, useMirror: bool, speed: Option<real>,
                         env: Env, tree: Tree, sv: Services)
    requires variant in VariantMap()
    requires CompleteWalk(sv, InstallDir(mods, variant))
    ensures var o := SyncRepo(mods, variant, useMirror, speed, env, tree, sv);
      var dir := InstallDir(mods, variant);
      o.result == Returned(true, Completed) ==>
        MakeDirs(tree, dir).Some? && RemovedStaleOf(o, MakeDirs(tree, dir).value, dir, variant, sv)
  {
    var o := SyncRepo(mods, variant, useMirror, speed, env, tree, sv);
    var dir := InstallDir(mods, variant);
    var folders := VariantMap()[variant].folders;
    if o.result == Returned(true, Completed) {
      assert o == SyncKnown(folders, dir, variant, speed, MirrorEnv(env, useMirror), tree, sv);
      var t := MakeDirs(tree, dir).value;
      var run := FetchAll(folders, dir, t, sv.fetch);
      assert o == AfterDownload(run, dir, variant, speed, MirrorEnv(env, useMirror), sv);
      DownloadRemovesStale(run, folders, dir, t, variant, speed, MirrorEnv(env, useMirror), sv);
    }
  }

  /** Apart from the log file, the final tree is the tree the downloads
      left minus exactly its stale textures under `dir`. */
  ghost predicate RemovedStaleOf(o: SyncOutcome, t: Tree, dir: Path, variant: string, sv: Services) {
    var fetched := Downloaded(t, o.calls);
    && Manifest.References(fetched, dir).Some?
    && var stale := Sweep.StaleSet(fetched, dir, Manifest.References(fetched, dir).value);
       forall p :: p != LogPath(dir, variant, sv) ==>
         (p in o.tree <==> p in fetched && p !in stale) && (p in o.tree ==> o.tree[p] == fetched[p])
  }

  /** The clean-up of a successful download run removes the stale set. */
  lemma DownloadRemovesStale(run: FetchRun, folders: seq<string>, dir: Path, t: Tree, variant: string,
                             speed: Option<real>, env: Env, sv: Services)
    requires run == FetchAll(folders, dir, t, sv.fetch)
    requires CompleteWalk(sv, dir)
    ensures var o := AfterDownload(run, dir, variant, speed, env, sv);
      o.result == Returned(true, Completed) ==> RemovedStaleOf(o, t, dir, variant, sv)
  {
    var o := AfterDownload(run, dir, variant, speed, env, sv);
    if o.result == Returned(true, Completed) {
      assert run.failure.None?;
      assert run.tree == Downloaded(t, o.calls);
      var statuses := DownloadStatuses(run.calls) + [CleaningUp];
      assert o == CleanUp(run.tree, dir, variant, speed, run.captured, env, run.calls, statuses, sv);
      CleanUpRemovesStale(run.tree, dir, variant, speed, run.captured, env, run.calls, statuses, sv);
    }
  }

  /** The report's result is decided before the upload. */
  lemma ReportIgnoresUpload(tree: Tree, dir: Path, variant: string, speed: Option<real>, captured: string,
                            env: Env, calls: seq<FetchCall>, statuses: seq<string>, sv: Services, sv2: Services)
    requires sv2 == sv.(upload := sv2.upload, removeError := sv2.removeError)
    ensures Report(tree, dir, variant, speed, captured, env, calls, statuses, sv).result ==
            Report(tree, dir, variant, speed, captured, env, calls, statuses, sv2).result
  {
  }

  /** Neither is the clean-up's. */
  lemma CleanUpIgnoresUpload(tree: Tree, dir: Path, variant: string, speed: Option<real>, captured: string,
                             env: Env, calls: seq<FetchCall>, statuses: seq<string>, sv: Services, sv2: Services)
    requires sv2 == sv.(upload := sv2.upload, removeError := sv2.removeError)
    ensures CleanUp(tree, dir, variant, speed, captured, env, calls, statuses, sv).result ==
            CleanUp(tree, dir, variant, speed, captured, env, calls, statuses, sv2).result
  {
    match Manifest.References(tree, dir)
    case None =>
    case Some(refs) =>
      match Sweep.SweepListing(tree, dir, refs, sv.listing(tree, dir))
      case Crashed(_, _) =>
      case Swept(t, _) =>
        ReportIgnoresUpload(t, dir, variant, speed, captured, env, calls, statuses + [Cleaned], sv, sv2);
  }

  /** The result of a sync does not depend on how the log upload or the
      removal of the local log turns out. */
  lemma ResultIgnoresUpload(mods: string, variant: string, useMirror: bool, speed: Option<real>,
                            env: Env, tree: Tree, sv: Services,
                            upload: (Path, string) -> Option<string>, removeError: Option<string>)
    ensures SyncRepo(mods, variant, useMirror, speed, env, tree, sv).result ==
            SyncRepo(mods, variant, useMirror, speed, env, tree, sv.(upload := upload, removeError := removeError)).result
  {
    var sv2 := sv.(upload := upload, removeError := removeError);
    if variant in VariantMap() {
      var dir := InstallDir(mods, variant);
      var env1 := MirrorEnv(env, useMirror);
      match MakeDirs(tree, dir)
      case None =>
      case Some(t) =>
        var run := FetchAll(VariantMap()[variant].folders, dir, t, sv.fetch);
        assert run == FetchAll(VariantMap()[variant].folders, dir, t, sv2.fetch);
        if run.failure.None? {
          CleanUpIgnoresUpload(run.tree, dir, variant, speed, run.captured, env1, run.calls,
                               DownloadStatuses(run.calls) + [CleaningUp], sv, sv2);
        }
    }
  }
}

=== FILE: text.dfy ===
/** The handful of Python string operations the installer relies on:
    `str.isspace`, `str.strip`, ASCII lower-casing, `str.replace(c, '')`,
    `str.split(c)` and decimal rendering of non-negative integers. */
module Text {

  /** Python's `str.isspace()`, which is also what the regex class `\s` matches. */
  predicate IsSpace(c: char) {
    || c == ' '
    || ('\t' <= c <= '\r')
    || ('\U{1C}' <= c <= '\U{1F}')
    || c == '\U{85}' || c == '\U{A0}' || c == '\U{1680}'
    || ('\U{2000}' <= c <= '\U{200A}')
    || c == '\U{2028}' || c == '\U{2029}' || c == '\U{202F}' || c == '\U{205F}' || c == '\U{3000}'
  }

  predicate AllSpace(s: string) {
    forall i :: 0 <= i < |s| ==> IsSpace(s[i])
  }

  /** The first index at or after `i` that does not hold a space (`|s|` if there is none). */
  function SkipSpaces(s: string, i: nat): (j: nat)
    requires i <= |s|
    ensures i <= j <= |s|
    ensures forall k :: i <= k < j ==> IsSpace(s[k])
    ensures j == |s| || !IsSpace(s[j])
    decreases |s| - i
  {
    if i == |s| || !IsSpace(s[i]) then i else SkipSpaces(s, i + 1)
  }

  /** One past the last non-space index in `s[lo..j]` (`lo` if there is none). */
  function TrimEnd(s: string, lo: nat, j: nat): (k: nat)
    requires lo <= j <= |s|
    ensures lo <= k <= j
    ensures forall m :: k <= m < j ==> IsSpace(s[m])
    ensures k == lo || !IsSpace(s[k - 1])
    decreases j
  {
    if j == lo || !IsSpace(s[j - 1]) then j else TrimEnd(s, lo, j - 1)
  }

  /** A run of space characters, seen as a slice. */
  lemma AllSpaceSlice(s: string, i: nat, j: nat)
    requires i <= j <= |s|
    requires forall k :: i <= k < j ==> IsSpace(s[k])
    ensures AllSpace(s[i..j])
  {
    forall k | 0 <= k < j - i ensures IsSpace(s[i..j][k]) {
      assert s[i..j][k] == s[i + k];
    }
  }

  /** `s` is `r` padded on both sides by spaces only, with `r` starting at index `i`. */
  ghost predicate Padded(s: string, i: nat, r: string) {
    && i + |r| <= |s|
    && s[i..i + |r|] == r
    && AllSpace(s[..i])
    && AllSpace(s[i + |r|..])
  }

  /** Python's `str.strip()` with no argument. */
  function Strip(s: string): (r: string)
    ensures Padded(s, SkipSpaces(s, 0), r)
    ensures |r| == 0 <==> AllSpace(s)
    ensures |r| > 0 ==> !IsSpace(r[0]) && !IsSpace(r[|r| - 1])
  {
    var i := SkipSpaces(s, 0);
    var j := TrimEnd(s, i, |s|);
    assert AllSpace(s[..i]) by {
      forall k | 0 <= k < i ensures IsSpace(s[..i][k]) { }
    }
    assert AllSpace(s[j..]) by {
      forall k | 0 <= k < |s| - j ensures IsSpace(s[j..][k]) { assert s[j..][k] == s[j + k]; }
    }
    s[i..j]
  }

  /** ASCII upper-case letters map to lower case; every other character is kept. */
  function LowerChar(c: char): (d: char)
    ensures 'A' <= c <= 'Z' ==> d as int == c as int + 32
    ensures !('A' <= c <= 'Z') ==> d == c
  {
    if 'A' <= c <= 'Z' then (c as int + 32) as char else c
  }

  /** Lower-casing as far as comparisons against ASCII literals are concerned. */
  function Lower(s: string): (r: string)
    ensures |r| == |s|
    ensures forall i :: 0 <= i < |s| ==> r[i] == LowerChar(s[i])
  {
    seq(|s|, i requires 0 <= i < |s| => LowerChar(s[i]))
  }

  /** Python's `s.replace(c, '')`: every `c` dropped, every other
      character kept in its order (see `RemoveCharConcat`). */
  function RemoveChar(s: string, c: char): (r: string)
    ensures c !in r
    ensures multiset(r) == multiset(s)[c := 0]
    ensures c !in s ==> r == s
    ensures |s| == 1 ==> r == (if s[0] == c then "" else s)
  {
    if |s| == 0 then ""
    else
      assert s == [s[0]] + s[1..];
      if s[0] == c then RemoveChar(s[1..], c) else [s[0]] + RemoveChar(s[1..], c)
  }

  /** Removing distributes over concatenation; with the one-character case
      this fixes the result, order included. */
  lemma {:induction false} RemoveCharConcat(a: string, b: string, c: char)
    ensures RemoveChar(a + b, c) == RemoveChar(a, c) + RemoveChar(b, c)
    decreases |a|
  {
    if |a| > 0 {
      assert (a + b)[0] == a[0];
      assert (a + b)[1..] == a[1..] + b;
      RemoveCharConcat(a[1..], b, c);
    } else {
      assert a + b == b;
    }
  }

  /** A text without `c`, then `c`, then more: `c` goes and the two sides
      stay in order, e.g. "12:34" gives "1234". */
  lemma RemoveCharAround(a: string, b: string, c: char)
    requires c !in a && c !in b
    ensures RemoveChar(a + [c] + b, c) == a + b
  {
    RemoveCharConcat(a + [c], b, c);
    RemoveCharConcat(a, [c], c);
  }

  /** Python's `s.split(c)[0]`: the text before the first `c`, or all of `s`. */
  function BeforeFirst(s: string, c: char): (r: string)
    ensures |r| <= |s|
    ensures r == s[..|r|]
    ensures c !in r
    ensures |r| < |s| ==> s[|r|] == c
  {
    if |s| == 0 || s[0] == c then ""
    else [s[0]] + BeforeFirst(s[1..], c)
  }

  /** The text before the first `c` is the `c`-free head, whether or not a
      `c` follows it. */
  lemma {:induction false} BeforeFirstCut(head: string, rest: string, c: char)
    requires c !in head
    ensures BeforeFirst(head, c) == head
    ensures BeforeFirst(head + [c] + rest, c) == head
    decreases |head|
  {
    if |head| > 0 {
      assert (head + [c] + rest)[1..] == head[1..] + [c] + rest;
      BeforeFirstCut(head[1..], rest, c);
    }
  }

  /** Python's `s.split(c)` for a one-character separator: never empty,
      and an empty string splits into one empty part. */
  function Split(s: string, c: char): (parts: seq<string>)
    ensures |parts| > 0
    ensures forall k :: 0 <= k < |parts| ==> c !in parts[k]
    decreases |s|
  {
    var head := BeforeFirst(s, c);
    if |head| == |s| then [s]
    else [head] + Split(s[|head| + 1..], c)
  }

  /** Python's `c.join(parts)`. */
  function Join(parts: seq<string>, c: char): string
  {
    if |parts| == 0 then ""
    else if |parts| == 1 then parts[0]
    else parts[0] + [c] + Join(parts[1..], c)
  }

  /** Joining the parts of a split with the same separator gives back the text. */
  lemma {:induction false} JoinSplit(s: string, c: char)
    ensures Join(Split(s, c), c) == s
    decreases |s|
  {
    var head := BeforeFirst(s, c);
    if |head| < |s| {
      var tail := s[|head| + 1..];
      var rest := Split(tail, c);
      var parts := [head] + rest;
      assert Split(s, c) == parts;
      JoinSplit(tail, c);
      assert |parts| >= 2 && parts[0] == head && parts[1..] == rest;
      assert Join(parts, c) == head + [c] + Join(rest, c);
      assert s == s[..|head|] + [s[|head|]] + tail;
    }
  }

  function DigitChar(d: nat): (c: char)
    requires d < 10
    ensures '0' <= c <= '9'
  {
    ('0' as int + d) as char
  }

  function DigitValue(c: char): int {
    c as int - '0' as int
  }

  /** Python's `str(n)` for a non-negative integer. */
  function NatToString(n: nat): (r: string)
    ensures |r| > 0
    ensures forall i :: 0 <= i < |r| ==> '0' <= r[i] <= '9'
    ensures |r| > 1 ==> r[0] != '0'
  {
    if n < 10 then [DigitChar(n)]
    else NatToString(n / 10) + [DigitChar(n % 10)]
  }

  /** The value of a string of decimal digits. */
  function ParseDecimal(s: string): int {
    if |s| == 0 then 0
    else 10 * ParseDecimal(s[..|s| - 1]) + DigitValue(s[|s| - 1])
  }

  /** Reading back the decimal rendering of `n` yields `n`. */
  lemma {:induction false} ParseNatToString(n: nat)
    ensures ParseDecimal(NatToString(n)) == n
  {
    if n >= 10 {
      var r := NatToString(n);
      ParseNatToString(n / 10);
      assert r[..|r| - 1] == NatToString(n / 10);
    }
  }
}

=== FILE: wrappers.dfy ===
/** The optional-value datatype shared by the installer model. */
module Wrappers {

  /** A value that may be absent (Python's `None`). */
  datatype Option<+T> = None | Some(value: T)
}
